=== FILE: README.md ===
# LA collision dashboard — a Dafny model of its data logic

The dashboard shows Los Angeles traffic collisions on three Streamlit pages. It also has a one-off preprocessing script that pairs collisions with nearby schools. This project models the deterministic logic behind those pages and that script. Each piece is a pure function over sequences of records, proved against independent characterisations:

- **Loading** (`LoadData`, `utils/load_data.py`):
  - parsing a `"(lat, lon)"` Location cell into two numbers;
  - dropping collision rows whose coordinates do not parse;
  - dropping schools without coordinates;
  - keeping rows with an unparseable date.
- **Radius proximity join** (`ProximityJoin`, `data/preprocess_school_data.py`). For every school, it keeps the collisions inside the inclusive bounding box of half-width R degrees and then inside the disc of radius R. It tags each kept row with the school, concatenates in school order, and left-merges the school categories. Distances are compared squared, so no square root is needed.
- **Polygon join and counts** (`PolygonJoin`, shared by the two map pages). The left spatial join gives one row per containing polygon, or one row with no polygon. The per-polygon counts are zero-filled.
- **Collision map page** (`CollisionMap`, `pages/1_Collision_Map.py`):
  - the four-step fill colour;
  - the year selector;
  - the per-location density and its green channel;
  - the commute ratio;
  - the month and hour histograms.
- **Neighbourhood page** (`NeighborhoodView` and `Ranking`, `pages/2_Neighborhood_Collision_View.py`):
  - the year-range filter and the per-neighbourhood counts;
  - the name-column heuristic;
  - the yellow→orange→red gradient built from `lerp`;
  - the default and selected neighbourhood;
  - the "top 20 plus the selected neighbourhood" bar data.
- **School safety page** (`SchoolSafety`, `pages/3_School_Safety_View.py`):
  - the category, name-search and year filters;
  - the per-school count, annual average and four-band rating;
  - the rating filter and the rating colours.

`Common` holds the shared records (`Option`, `Point`, `Date`, `Rgb`) and a stable `Filter` with its algebra. It also has insertion into a sorted sequence and the minimum and maximum of a sequence. `Text` models the string operations the loaders and filters use:
- `str.strip` with a character set;
- `str.split` on one separator;
- ASCII lower-casing and substring search;
- lexicographic order;
- decimal-number parsing and formatting, with a round-trip proof.

Whatever the code relies on from outside libraries becomes a parameter:
- point-in-polygon containment is `within: (Point, Polygon) -> bool`;
- `pd.to_datetime` is `parseDate: string -> Option<Date>`;
- rounding coordinates to a 4-decimal grid is `cell: Point -> Point`;
- the route buffer is `inBuffer: Collision -> bool`.

Floating-point numbers are modelled as exact `real`s. Python's `int()` truncation is written out as `Common.Trunc`, and floor division as Dafny's `/` on non-negative values, with an explicit case for negative times.

Behaviour of the code worth noting:
- A collision inside two overlapping neighbourhood polygons is counted in both, because `gpd.sjoin(how="left")` emits one row per containing polygon.
- A period of zero or fewer years gives an annual average of 0.
- `school_id` is the school's row label in the raw schools file, i.e. its position before rows without coordinates are dropped.
- The polygon fills on the collision map count collisions of all years, not only the selected year.
- When no collision lies near any school, `Preprocess` returns `None`. On that path the script builds an empty frame and then fails at the category merge.
- The category-3 selector falls back to "All" when the remembered choice is not offered under the current category-2 filter.
- The collision loader fails with a KeyError when the file has a Location column but no cell holds a comma, since `str.split(",", expand=True)` then makes no second column. `LoadCollisionTable` returns `None` there. In that case every row would have been dropped anyway (`NoCommaNoRows`).
- Every page filters on the `Year` column as the table carries it. Page 1 derives it from the date only when the file has no such column (`MapTable`). The preprocessing script always overwrites it with the date's year (`ScriptCollisions`). Page 2 reads it from the file as it is.

## Model

| member | source | states |
|---|---|---|
| Text.StripPadded | utils/load_data.py:22 | stripping a character set removes exactly a padding of those characters and keeps a core that neither starts nor ends with one |
| Text.JoinSplit | utils/load_data.py:22 | splitting on a separator and joining the pieces back gives the original string |
| Text.SplitJoin | utils/load_data.py:22 | joining separator-free pieces and splitting again gives back the pieces |
| Text.ParseFormat | utils/load_data.py:23-24 | the number parser reads back every decimal written in plain notation, so parsing inverts formatting |
| Text.ContainsIffOccurs | pages/3_School_Safety_View.py:164-167 | substring containment holds exactly when the needle occurs at some position |
| Text.StringLessOrder | pages/3_School_Safety_View.py:89 | the lexicographic order used by `sorted` is a strict total order on strings |
| LoadData.LocationRoundTrip | utils/load_data.py:22-24 | a Location cell written "(a, b)" from two decimals parses to latitude a and longitude b |
| LoadData.LocationExample | utils/load_data.py:22-24 | the cell "(34.05, -118.25)" parses to latitude 34.05 and longitude -118.25 |
| LoadData.LoadCollisions | utils/load_data.py:17-32 | no rows are added and every kept row is the load of some file row; with a Location column every kept row has coordinates; without one every row is kept as it is |
| LoadData.LoadCollisionTable | utils/load_data.py:21-24 | the load fails exactly when there is a Location column and no cell holds a comma, since `loc[1]` then does not exist |
| LoadData.NoCommaNoLocation | utils/load_data.py:22-24 | a cell without a comma has no second piece, so its coordinates never parse |
| LoadData.NoCommaNoRows | utils/load_data.py:21-25 | when no cell holds a comma, every row would be dropped, so the failure replaces an empty table |
| LoadData.WithDateYears | data/preprocess_school_data.py:39 | every row's year becomes the year of its date, and no other field changes |
| LoadData.WithDateYearsIdempotent | data/preprocess_school_data.py:39 | deriving the years a second time changes nothing |
| LoadData.LoadCollisionsKeepsLocatable | utils/load_data.py:21-25 | with a Location column, a row survives loading exactly when its Location parses |
| LoadData.LoadCollisionsConcat | utils/load_data.py:21-25 | loading drops rows independently, so loading a concatenation concatenates the loads and order is kept |
| LoadData.LoadSchools | utils/load_data.py:48-53 | every loaded school comes from a raw row with both coordinates, keeps its raw row label as id, and the raw order is kept |
| LoadData.LoadSchoolsComplete | utils/load_data.py:51 | a raw school row is loaded exactly when it has both latitude and longitude |
| LoadData.LoadCollisionSchool | utils/load_data.py:60-64 | every joined row is kept with its school and year, and its date is exactly the parse of its date text, missing when unparseable, so no row is dropped |
| ProximityJoin.SearchRadiusValue | data/preprocess_school_data.py:18-19 | the search radius 0.2 mi × 1609.34 m / 111000 m lies between 0.00289 and 0.0029 degrees |
| ProximityJoin.BoxContainsDisc | data/preprocess_school_data.py:62-74 | every point within distance R of the school lies inside the inclusive bounding box, so the box pre-filter removes no true match |
| ProximityJoin.Nearby | data/preprocess_school_data.py:61-74 | the collisions kept for a school are exactly those whose squared distance is at most R squared |
| ProximityJoin.NearbyMonotone | data/preprocess_school_data.py:68-74 | a smaller radius keeps exactly the larger radius's matches that are within it, so the matches grow with the radius |
| ProximityJoin.ExactLocationMatched | data/preprocess_school_data.py:68-74 | a collision at exactly the school's coordinates is always matched |
| ProximityJoin.RadiusScenario | data/preprocess_school_data.py:68-74 | with the real radius, a collision 0.0015° from a school is matched and one 0.01° away is not |
| ProximityJoin.TagAll | data/preprocess_school_data.py:76-81 | each emitted row is the matched collision, unchanged, tagged with that school's name, id and coordinates |
| ProximityJoin.TagAllMembers | data/preprocess_school_data.py:76-81 | a row is among a school's tagged rows exactly when it is one of its collisions tagged with that school |
| ProximityJoin.JoinSchoolsSpec | data/preprocess_school_data.py:56-98 | every output row is a collision near the school it is tagged with, and every near school/collision pair is output |
| ProximityJoin.JoinSchoolsConcat | data/preprocess_school_data.py:93-94 | the output is the concatenation of each school's matches in school order |
| ProximityJoin.JoinSchoolsMonotone | data/preprocess_school_data.py:68-74 | the join with a smaller radius is the join with a larger radius filtered by the smaller radius |
| ProximityJoin.JoinSchoolsMultiplicity | data/preprocess_school_data.py:56-94 | a collision occurs in the output as many times as there are schools within R of it, times its own multiplicity |
| ProximityJoin.MergeCategories | data/preprocess_school_data.py:103-110 | the left merge never loses a row and every merged row carries a joined row |
| ProximityJoin.MergeKeepsRows | data/preprocess_school_data.py:103-110 | every joined row appears in the merged output |
| ProximityJoin.MergeCategoriesUnique | data/preprocess_school_data.py:103-110 | with unique school names the merge is one-to-one and attaches that school's Category2 and Category3 |
| ProximityJoin.ScriptCollisions | data/preprocess_school_data.py:24-39 | the script's table has at most as many rows as the file, every row has coordinates, every row's year is its date's year, and every file row with a usable Location reaches the table with that year, and every row of the table is such a file row |
| ProximityJoin.PreprocessWithoutSecondColumn | data/preprocess_school_data.py:27-31 | when no Location cell holds a comma, the script fails |
| ProximityJoin.Preprocess | data/preprocess_school_data.py:56-122 | the script fails exactly when no loaded collision is near any loaded school; otherwise every row is a collision of the script's table tagged with a loaded school it lies within R of, and every such pair is present |
| PolygonJoin.Containing | pages/1_Collision_Map.py:98-103 | the polygon ids listed for a point are exactly the polygons containing it, each once |
| PolygonJoin.SpatialJoin | pages/1_Collision_Map.py:98-103 | the left join keeps every point, and every polygon id it attaches contains that point |
| PolygonJoin.SpatialJoinComplete | pages/1_Collision_Map.py:98-103 | a point gets a row for every polygon containing it, and a row with no polygon when none does |
| PolygonJoin.JoinPointCount | pages/1_Collision_Map.py:98-103 | one point contributes exactly one row to a polygon that contains it and none to any other |
| PolygonJoin.PolygonCounts | pages/1_Collision_Map.py:106-113 | every polygon receives a count, and no count exceeds the number of joined rows |
| PolygonJoin.CountsAreContainment | pages/1_Collision_Map.py:106-113 | each polygon's zero-filled count equals the number of points it contains |
| PolygonJoin.CountsConcat | pages/1_Collision_Map.py:106-113 | counting a union of point sets adds the counts polygon by polygon |
| CollisionMap.CollisionColor | pages/1_Collision_Map.py:20-33 | every count gets one of the four fills, and the lightest one exactly when the count is 0 |
| CollisionMap.DarkerWithMoreCollisions | pages/1_Collision_Map.py:20-33 | more collisions never give a lighter fill, and crossing 1, 100 or 1000 gives a strictly darker one |
| CollisionMap.PolygonFills | pages/1_Collision_Map.py:106-118 | each polygon's fill is the severity band of the number of collisions inside it, so it gets the no-collision fill exactly when it contains none |
| CollisionMap.MapTable | pages/1_Collision_Map.py:72-73 | the page's year is the file's Year column when it has one and the date's year otherwise, and no other field changes |
| CollisionMap.KnownYears | pages/1_Collision_Map.py:125 | the listed years are exactly the years present in the data |
| CollisionMap.YearOptions | pages/1_Collision_Map.py:125-126 | "All" comes first, followed by exactly the years present, strictly increasing |
| CollisionMap.DefaultIsLatestYear | pages/1_Collision_Map.py:128-132 | the preselected year is the latest year present, or "All" when no year is known |
| CollisionMap.SelectYear | pages/1_Collision_Map.py:135-142 | "All" keeps every row; a year keeps exactly the rows of that year |
| CollisionMap.YearScope | pages/1_Collision_Map.py:144-146 | the page stops exactly when the selected year has no rows |
| CollisionMap.LocationCount | pages/1_Collision_Map.py:153-173 | a collision's location count is at least 1 and at most the number of rows in scope |
| CollisionMap.SameCellSameCount | pages/1_Collision_Map.py:153-171 | rows in the same rounded cell get the same count |
| CollisionMap.LocationCountEmpty | pages/1_Collision_Map.py:157-173 | an empty scope gives a located row count 0, and a row without coordinates gets the `fillna(1)` default |
| CollisionMap.LocationCountAppend | pages/1_Collision_Map.py:157-173 | one more row in scope raises the count of its own cell by one and leaves other cells and the default unchanged, so the count is the size of the cell's group |
| CollisionMap.Norm | pages/1_Collision_Map.py:176-180 | the normalised density is (count − min) divided by max − min, or by 1 when they are equal; it lies in [0,1], is 0 exactly at the minimum and, when the range is non-zero, 1 exactly at the maximum |
| CollisionMap.NormScaled | pages/1_Collision_Map.py:176-180 | multiplying a normalised density by the divisor gives back the count's distance from the minimum |
| CollisionMap.Normalise | pages/1_Collision_Map.py:176-180 | every density is (count − min of the column) / denom, where denom is max − min or 1; every density is in [0,1]; the least-dense locations get 0 and, when densities differ, the densest get 1 |
| CollisionMap.NormaliseMonotone | pages/1_Collision_Map.py:176-180 | a denser location never gets a smaller normalised density |
| CollisionMap.Green | pages/1_Collision_Map.py:183-184 | the green channel is clipped to [0,255] and falls linearly from 255 to 0 as the density goes from 0 to 1 |
| CollisionMap.DotColours | pages/1_Collision_Map.py:176-186 | every dot is red with no blue, and its green channel is 255 − 255 × the normalised density of its location's count over the scope's counts, within [0,255] |
| CollisionMap.DotColoursOrder | pages/1_Collision_Map.py:176-186 | a denser location is never greener; the sparsest are fully green and the densest have no green |
| CollisionMap.RouteStats | pages/1_Collision_Map.py:486-488 | the on-route count is the number of points in the buffer; the ratio is in [0,1], 1 exactly when all of at least one point are on the route, and 0 exactly when none are |
| CollisionMap.Ratio | pages/1_Collision_Map.py:488 | the ratio times the total gives back the part, it is 0 for an empty total, and it lies in [0,1] |
| CollisionMap.Tally | pages/1_Collision_Map.py:588-593 | each bin holds exactly the number of rows whose key is that bin |
| CollisionMap.TallySum | pages/1_Collision_Map.py:588-593 | the bins add up to the number of rows whose key falls in the bin range |
| CollisionMap.SumBump | pages/1_Collision_Map.py:588-593 | counting one row into a bin raises the total by one, and a key outside the bins leaves it unchanged |
| CollisionMap.MonthHistogram | pages/1_Collision_Map.py:585-598 | there are exactly the twelve month bins, each counting the rows of that month and absent months counting 0 |
| CollisionMap.MonthHistogramSum | pages/1_Collision_Map.py:588-593 | the month bins add up to the number of rows with a date |
| CollisionMap.Hour | pages/1_Collision_Map.py:623-628 | the hour is always in 0..23 |
| CollisionMap.HourOfClockTime | pages/1_Collision_Map.py:623-628 | a time written hhmm with a valid clock hour and minute falls in hour hh |
| CollisionMap.HourEdges | pages/1_Collision_Map.py:623-628 | a missing or negative time is hour 0, times from 2300 up are hour 23, and times below 100 are hour 0 |
| CollisionMap.HourHistogram | pages/1_Collision_Map.py:623-640 | there are 24 hour bins, each counting the rows of that hour |
| CollisionMap.HourHistogramSum | pages/1_Collision_Map.py:630-635 | the 24 hour bins add up to the number of rows, so no row is lost |
| NeighborhoodView.YearFilter | pages/2_Neighborhood_Collision_View.py:41 | the kept rows are exactly those whose year lies in the inclusive range |
| NeighborhoodView.NeighbourhoodCounts | pages/2_Neighborhood_Collision_View.py:47-70 | every polygon gets a count, equal to the number of collisions in the year range that it contains |
| NeighborhoodView.WiderRangeNeverFewer | pages/2_Neighborhood_Collision_View.py:41-70 | widening the year range never lowers a neighbourhood's count |
| NeighborhoodView.NameColumn | pages/2_Neighborhood_Collision_View.py:75-85 | the name column is the first text column whose lower-cased name mentions name/neigh/hood, else the first text column, else "poly_id" |
| NeighborhoodView.NameColumnIgnoresCase | pages/2_Neighborhood_Collision_View.py:76-81 | a leading text column called "Name" in any letter case is chosen |
| NeighborhoodView.Lerp | pages/2_Neighborhood_Collision_View.py:100-101 | the interpolated channel stays between its endpoints, starting at the first and reaching the second |
| NeighborhoodView.LerpMonotone | pages/2_Neighborhood_Collision_View.py:100-101 | towards a smaller endpoint, a larger fraction never gives a larger channel |
| NeighborhoodView.Spread | pages/2_Neighborhood_Collision_View.py:91-93 | the fraction (n − min) / max(max − min, 1) is the same normalisation as the collision map's, and lies in [0,1] |
| NeighborhoodView.Gradient | pages/2_Neighborhood_Collision_View.py:103-120 | channels stay in 0..255 and between the low/mid or the mid/high colours; the low colour exactly at the minimum, the high colour at a distinct maximum |
| NeighborhoodView.GradientMonotone | pages/2_Neighborhood_Collision_View.py:103-120 | a larger count never gives a larger red, green or blue channel |
| NeighborhoodView.ChoroplethFills | pages/2_Neighborhood_Collision_View.py:91-124 | a neighbourhood is pale yellow exactly when its count is the smallest, and the largest count is red when counts differ |
| NeighborhoodView.DefaultNeighbourhood | pages/2_Neighborhood_Collision_View.py:127-134 | nothing is preselected exactly when there are no neighbourhoods; otherwise the preselected neighbourhood has the largest count |
| NeighborhoodView.SelectedRecords | pages/2_Neighborhood_Collision_View.py:142-148 | with no selection there are no records; otherwise exactly the joined rows in a polygon carrying the selected name |
| NeighborhoodView.LabelledIds | pages/2_Neighborhood_Collision_View.py:142-145 | the selected polygon ids are exactly the positions whose name is the selection |
| NeighborhoodView.SelectedAreInside | pages/2_Neighborhood_Collision_View.py:41-148 | a collision has a detail record exactly when it is in the year range and inside some polygon with the selected name |
| NeighborhoodView.SelectedSound | pages/2_Neighborhood_Collision_View.py:41-148 | every detail record is a collision of the year range inside a polygon with the selected name |
| NeighborhoodView.SelectedComplete | pages/2_Neighborhood_Collision_View.py:41-148 | every collision of the year range inside a polygon with the selected name has a detail record |
| Ranking.Insert | pages/2_Neighborhood_Collision_View.py:231 | inserting into a ranking keeps it sorted by count, descending, and adds exactly that row |
| Ranking.SortDesc | pages/2_Neighborhood_Collision_View.py:231 | the ranking is sorted by count, descending, and is a permutation of the table |
| Ranking.SortDescSorted | pages/2_Neighborhood_Collision_View.py:231 | sorting an already sorted ranking changes nothing |
| Ranking.DedupFrom | pages/2_Neighborhood_Collision_View.py:238 | de-duplication keeps rows of the input with pairwise-distinct new names and loses no new name |
| Ranking.DedupConcat | pages/2_Neighborhood_Collision_View.py:238 | de-duplicating a concatenation de-duplicates the second part after the names of the first |
| Ranking.Head | pages/2_Neighborhood_Collision_View.py:233 | the head is the prefix of length min(n, length) |
| Ranking.WithSelected | pages/2_Neighborhood_Collision_View.py:237-238 | appending the selected row to the top rows and de-duplicating adds at most one row, includes the selected name, and every added row is a ranked row of that name |
| Ranking.TopWithSelected | pages/2_Neighborhood_Collision_View.py:233-240 | at most 21 rows, each a top-20 row or a row of the selected name, with every top-20 name and the selected name when it exists; exactly the top 20 when nothing is selected, the selection is not ranked, or it is already in the top 20 |
| Ranking.BarData | pages/2_Neighborhood_Collision_View.py:229-248 | the bars are sorted by count, descending; "Show all" gives the whole table; otherwise at most 21 bars, each a top-20 row or a row of the selected name, with every top-20 name and the selected one, and exactly the top 20 when the selection adds nothing |
| SchoolSafety.CategoryOptions | pages/3_School_Safety_View.py:89 | "All" followed by exactly the present values, in sorted order |
| SchoolSafety.EffectiveChoice | pages/3_School_Safety_View.py:104-105 | a remembered choice is kept when offered and replaced by "All" otherwise |
| SchoolSafety.ByCategory2 | pages/3_School_Safety_View.py:97-100 | "All" keeps every school; a type keeps exactly the schools of that Category2 |
| SchoolSafety.ByCategory3 | pages/3_School_Safety_View.py:114-117 | "All" keeps every school; a category keeps exactly the schools of that Category3 |
| SchoolSafety.Category3Choice | pages/3_School_Safety_View.py:103-112 | the category-3 filter applied is the chosen one when some school of the chosen type has it, and "All" otherwise |
| SchoolSafety.SearchByName | pages/3_School_Safety_View.py:164-169 | an empty search keeps every school; otherwise exactly the schools whose name contains the text, ignoring case |
| SchoolSafety.SearchFindsVerbatim | pages/3_School_Safety_View.py:164-169 | a school whose name contains the search text verbatim is always found |
| SchoolSafety.ShownSchools | pages/3_School_Safety_View.py:97-169 | every shown school passes the type filter, the search and the category-3 filter actually applied. Every school passing all three filters is shown. When the category-3 choice falls back to "All", every school passing the type filter and the search is shown |
| SchoolSafety.InPeriod | pages/3_School_Safety_View.py:158-161 | the kept records are exactly those whose year lies in the inclusive range |
| SchoolSafety.AnnualAverage | pages/3_School_Safety_View.py:187-201 | the average times the period gives back the count, and a period of zero or fewer years gives 0 |
| SchoolSafety.AverageMonotone | pages/3_School_Safety_View.py:187-201 | more collisions over the same period never give a lower average |
| SchoolSafety.RatingBands | pages/3_School_Safety_View.py:201-211 | over a positive period the bands partition the counts: none, up to 3 a year, up to 10 a year, more |
| SchoolSafety.RatingMonotone | pages/3_School_Safety_View.py:204-211 | a higher average never gets a better rating |
| SchoolSafety.MoreCollisionsNeverSafer | pages/3_School_Safety_View.py:201-211 | over a fixed period, more collisions never give a better rating |
| SchoolSafety.ThreeYearScenario | pages/3_School_Safety_View.py:187-211 | over 2021–2023, 0 collisions are Excellent, 9 Good, 10 and 30 Fair, and 31 Poor |
| SchoolSafety.LabelsDistinct | pages/3_School_Safety_View.py:204-211 | the four rating labels are pairwise different and none is "All" |
| SchoolSafety.Assess | pages/3_School_Safety_View.py:193-216 | a school's count is its records in the period; it is rated Excellent exactly when there are none or the period is empty |
| SchoolSafety.AveragePositive | pages/3_School_Safety_View.py:201 | the average is 0 exactly when there are no collisions or the period is empty |
| SchoolSafety.SafetyTable | pages/3_School_Safety_View.py:193-216 | one row per shown school, in order, with its own count, average and rating over the period |
| SchoolSafety.WiderPeriodNeverFewer | pages/3_School_Safety_View.py:158-198 | widening the year range never lowers a school's count |
| SchoolSafety.SameNameSameCount | pages/3_School_Safety_View.py:193-198 | two schools with the same name get the same count and rating, since records are matched by name |
| SchoolSafety.TableRows | pages/3_School_Safety_View.py:193-216 | every table row belongs to a shown school and carries that school's count and rating |
| SchoolSafety.ByRating | pages/3_School_Safety_View.py:227-228 | "All" keeps every row; a rating keeps exactly the rows with that label |
| SchoolSafety.ByRatingLabel | pages/3_School_Safety_View.py:227-228 | filtering by a rating's label keeps exactly the rows with that rating |
| SchoolSafety.SafetyColour | pages/3_School_Safety_View.py:233-241 | a known label gets its colour and any other string gets grey (150,150,150) |
| SchoolSafety.RatingColours | pages/3_School_Safety_View.py:233-241 | the four ratings get four different non-grey colours |
| SchoolSafety.SafetyView | pages/3_School_Safety_View.py:158-228 | every row passes the filters actually applied and carries its school's period count and rating. Every school passing all filters is listed, including under the category-3 fallback to "All" |
| SchoolSafety.RatedRowsKept | pages/3_School_Safety_View.py:227-228 | a shown school whose rating matches the rating filter keeps its row |

## Left out

- File I/O, `pd.read_csv` / `gpd.read_file` / `to_csv`, progress printing and `@st.cache_data`: the model starts from rows already read.
- Streamlit widgets, `st.session_state` bookkeeping, the Apply button and `st.rerun`: filters are plain record arguments (`Filters`, `YearChoice`, `selected`, `showAll`).
- pydeck and Altair chart construction, map styles, tooltips and the hexagon layer: rendering only.
- The random sample of at most 8000 rows drawn on page 1 (pages/1_Collision_Map.py:149-150) is not modelled: the model draws every row in scope. The sample is random, and it also fixes the colour range, since the minimum and maximum at lines 176-177 are taken over the sampled rows only.
- The OSRM route request, its straight-line fallback, the CRS reprojection, the route buffer and centroids: the buffer is the predicate `inBuffer`.
- Point-in-polygon `within`: an uninterpreted parameter `within`, not geometry.
- Rounding coordinates to 4 decimals for grouping: the parameter `cell`.
- `pd.to_datetime`: the parameter `parseDate`; only its success or failure matters.
- `str.contains` regular-expression semantics: the search is a plain substring test with ASCII lower-casing, so a query with regex metacharacters is outside the model.
- `pd.to_numeric` accepts exponents, `inf` and `nan`; the model parses plain decimals (optional sign, digits, optional fraction).
- Floating-point rounding: values are exact reals.
- The per-route hotspot list (top three rounded locations) and the commute location labels on the collision map page: display only.
- Pages 1 and 2 without a Location column: both pages fail at `df["lon"]` (pages/1_Collision_Map.py:85, pages/2_Neighborhood_Collision_View.py:49). The model loads every row without coordinates, so it lies in no polygon and the counts, fills and detail records are zero or empty where the pages fail.
- Page 2 without a `Year` column: the page fails at `df["Year"]`. The model reads a missing column as every year missing, so no row is in range.
- The year slider's minimum and maximum on the neighbourhood and school pages: the model takes the chosen range as given.
- CollisionMap.Normalise: requires a non-empty table; the source computes min and max of an empty frame and fails.
- NeighborhoodView.ChoroplethFills: requires at least one polygon, because the source's min and max of an empty column are NaN.
- CollisionMap.DotColours: requires rows in scope; the page stops earlier when there are none (see `YearScope`). It normalises over the counts of every row in scope. With more than 8000 rows the page normalises over the sampled rows only, so its colours can differ from the model's.
- CollisionMap.RouteStats: states the ratio's bounds and extremes; the exact product ratio × total = on-route is stated on `Ratio`.
- NeighborhoodView.Gradient: the high colour is promised at a distinct maximum only, not as an if-and-only-if, because truncation by `int()` can also give the high colour just below the maximum.
- Ranking.SortDesc: a stable insertion sort; pandas' default quicksort does not promise the order among equal counts, so the model fixes one.
- ProximityJoin.Preprocess: assumes the collision file has a Location column, as the script does (it fails without the lat/lon columns); the output column selection is not modelled.

=== FILE: collision_map.dfy ===
/**
 The computations of pages/1_Collision_Map.py: the severity fill of every
 neighbourhood polygon, the year selector and its scope, the dot-density
 colour scale, the commute-route ratio and the month and hour histograms.
 */
module CollisionMap {
  import opened Common
  import opened LoadData
  import opened PolygonJoin

  // ---------------------------------------------------------------
  // Polygon fills
  // ---------------------------------------------------------------

  const NoCollisionFill: Rgb := Rgb(230, 230, 230)
  const FewCollisionsFill: Rgb := Rgb(198, 239, 206)
  const SomeCollisionsFill: Rgb := Rgb(123, 201, 111)
  const ManyCollisionsFill: Rgb := Rgb(35, 132, 67)

  /** The sum of the channels: lower is darker. */
  function Brightness(c: Rgb): int
  {
    c.r + c.g + c.b
  }

  /** `collision_to_color`: four severity bands, 0, below 100, below 1000
      and the rest. */
  function CollisionColor(n: nat): (c: Rgb)
    ensures c == NoCollisionFill <==> n == 0
    ensures c in {NoCollisionFill, FewCollisionsFill, SomeCollisionsFill, ManyCollisionsFill}
  {
    if n == 0 then NoCollisionFill
    else if n < 100 then FewCollisionsFill
    else if n < 1000 then SomeCollisionsFill
    else ManyCollisionsFill
  }

  /** Higher counts never give a lighter fill, and each band boundary
      (1, 100, 1000) gives a strictly darker one. */
  lemma DarkerWithMoreCollisions(n: nat, m: nat)
    requires n <= m
    ensures Brightness(CollisionColor(m)) <= Brightness(CollisionColor(n))
    ensures (n < 1 <= m || n < 100 <= m || n < 1000 <= m) ==>
              Brightness(CollisionColor(m)) < Brightness(CollisionColor(n))
  {
  }

  /** The fill of every polygon from the counts of all collisions, whatever
      the year chosen: each polygon gets the band of the number of collisions
      inside it, so it is light grey exactly when none lies inside it. */
  function PolygonFills(within: (Point, Polygon) -> bool, polys: seq<Polygon>, collisions: seq<Collision>): (fills: seq<Rgb>)
    ensures |fills| == |polys|
    ensures forall i :: 0 <= i < |polys| ==>
              fills[i] == CollisionColor(|Filter(InsidePolygon(within, polys, i), collisions)|)
    ensures forall i :: 0 <= i < |polys| ==>
              (fills[i] == NoCollisionFill <==> forall c :: c in collisions ==> !Inside(within, polys, i, c))
  {
    var counts := PolygonCounts(SpatialJoin(within, polys, collisions), |polys|);
    CountsAreContainment(within, polys, collisions);
    seq(|polys|, i requires 0 <= i < |polys| => CollisionColor(counts[i]))
  }

  // ---------------------------------------------------------------
  // Year selector
  // ---------------------------------------------------------------

  /** The table page 1 works on: the file's Year column when it has one,
      otherwise the year of each row's date. Every operation of this page
      takes its collisions after this step. */
  function MapTable(collisions: seq<Collision>, hasYearColumn: bool): (r: seq<Collision>)
    ensures |r| == |collisions|
    ensures forall k :: 0 <= k < |r| ==>
              Year(r[k]) == (if hasYearColumn then Year(collisions[k]) else DateYear(collisions[k]))
    ensures forall k :: 0 <= k < |r| ==> r[k].(year := collisions[k].year) == collisions[k]
  {
    if hasYearColumn then collisions else WithDateYears(collisions)
  }

  /** An entry of the year select box: "All" or one year. */
  datatype YearChoice = AllYears | OneYear(year: int)

  function YearsPresent(collisions: seq<Collision>): set<int>
  {
    set c | c in collisions && Year(c).Some? :: Year(c).value
  }

  /** The `Year` column with missing values dropped. */
  function KnownYears(collisions: seq<Collision>): (ys: seq<int>)
    ensures forall y :: y in ys <==> y in YearsPresent(collisions)
    decreases |collisions|
  {
    if |collisions| == 0 then []
    else
      var c := collisions[0];
      var rest := KnownYears(collisions[1..]);
      assert forall y :: y in YearsPresent(collisions) <==>
               (Year(c).Some? && y == Year(c).value) || y in YearsPresent(collisions[1..]) by {
        assert collisions == [c] + collisions[1..];
      }
      if Year(c).Some? then [Year(c).value] + rest else rest
  }

  function YearEntries(years: seq<int>): (entries: seq<YearChoice>)
    ensures |entries| == |years|
    ensures forall i :: 0 <= i < |years| ==> entries[i] == OneYear(years[i])
    ensures forall y :: OneYear(y) in entries <==> y in years
    ensures AllYears !in entries
    decreases |years|
  {
    if |years| == 0 then [] else [OneYear(years[0])] + YearEntries(years[1..])
  }

  /** `["All"] + sorted(unique years)`: "All" first, then every year
      present once, in increasing order. */
  function YearOptions(collisions: seq<Collision>): (opts: seq<YearChoice>)
    ensures |opts| >= 1 && opts[0] == AllYears
    ensures forall i :: 1 <= i < |opts| ==> opts[i].OneYear?
    ensures forall i, j :: 1 <= i < j < |opts| ==> opts[i].year < opts[j].year
    ensures forall y :: OneYear(y) in opts <==> y in YearsPresent(collisions)
  {
    IntLessOrder();
    var years := SortedDistinct(IntLess(), KnownYears(collisions));
    [AllYears] + YearEntries(years)
  }

  /** The pre-selected entry, the last option. */
  function DefaultYear(collisions: seq<Collision>): YearChoice
  {
    var opts := YearOptions(collisions);
    opts[|opts| - 1]
  }

  /** The default is the latest year present, or "All" when no row has a year. */
  lemma DefaultIsLatestYear(collisions: seq<Collision>)
    ensures YearsPresent(collisions) == {} ==> DefaultYear(collisions) == AllYears
    ensures YearsPresent(collisions) != {} ==>
              DefaultYear(collisions).OneYear?
              && DefaultYear(collisions).year in YearsPresent(collisions)
              && forall y :: y in YearsPresent(collisions) ==> y <= DefaultYear(collisions).year
  {
    IntLessOrder();
    var years := SortedDistinct(IntLess(), KnownYears(collisions));
    var opts := YearOptions(collisions);
    assert opts == [AllYears] + YearEntries(years);
    if |years| > 0 {
      var last := years[|years| - 1];
      assert opts[|opts| - 1] == OneYear(last);
      assert last in years;
      forall y | y in YearsPresent(collisions)
        ensures y <= last
      {
        var i :| 0 <= i < |years| && years[i] == y;
      }
    } else {
      assert forall y :: y !in YearsPresent(collisions);
    }
  }

  /** The rows the map and the statistics use: all of them for "All", else
      those whose year equals the chosen one (a missing year never does). */
  function SelectYear(collisions: seq<Collision>, choice: YearChoice): (r: seq<Collision>)
    ensures choice.AllYears? ==> r == collisions
    ensures choice.OneYear? ==> forall c :: c in r <==> c in collisions && Year(c) == Some(choice.year)
    ensures |r| <= |collisions|
  {
    match choice
    case AllYears => collisions
    case OneYear(y) => Filter((c: Collision) => Year(c) == Some(y), collisions)
  }

  /** The page stops with a warning when the chosen year has no rows. */
  function YearScope(collisions: seq<Collision>, choice: YearChoice): (r: Option<seq<Collision>>)
    ensures r.None? <==> SelectYear(collisions, choice) == []
    ensures r.Some? ==> r.value == SelectYear(collisions, choice) && |r.value| > 0
  {
    var rows := SelectYear(collisions, choice);
    if |rows| == 0 then None else Some(rows)
  }

  // ---------------------------------------------------------------
  // Dot-density colour
  // ---------------------------------------------------------------

  /** The number of rows of the scope that fall in the same rounded
      location cell as `c`; the 4-decimal rounding is the parameter `cell`.
      A row without coordinates has no cell and gets the `fillna(1)`
      default. */
  function LocationCount(scope: seq<Collision>, cell: Point -> Point, c: Collision): (n: nat)
    ensures c in scope ==> n >= 1
    ensures n <= |scope| || n == 1
  {
    if c.coord.None? then 1
    else
      var same := Filter(InCell(cell, cell(c.coord.value)), scope);
      assert c in scope ==> c in same;
      |same|
  }

  /** Whether a row lies in the rounded cell `key`. */
  function InCell(cell: Point -> Point, key: Point): Collision -> bool
  {
    (q: Collision) => q.coord.Some? && cell(q.coord.value) == key
  }

  /** Rows in the same cell share one count: the count belongs to the
      cell's group, not to the row. */
  lemma SameCellSameCount(scope: seq<Collision>, cell: Point -> Point, c: Collision, d: Collision)
    requires c.coord.Some? && d.coord.Some? && cell(c.coord.value) == cell(d.coord.value)
    ensures LocationCount(scope, cell, c) == LocationCount(scope, cell, d)
  {
  }

  /** An empty scope has no rows in any cell. */
  lemma LocationCountEmpty(cell: Point -> Point, c: Collision)
    ensures LocationCount([], cell, c) == if c.coord.None? then 1 else 0
  {
  }

  /** One more row in the scope adds one to the count of its own cell and
      leaves every other cell's count, and the default 1, unchanged;
      with `LocationCountEmpty` this makes the count the size of the cell's
      group. */
  lemma LocationCountAppend(scope: seq<Collision>, cell: Point -> Point, c: Collision, q: Collision)
    ensures c.coord.None? ==> LocationCount(scope + [q], cell, c) == 1
    ensures c.coord.Some? ==>
              LocationCount(scope + [q], cell, c)
              == LocationCount(scope, cell, c)
                 + (if q.coord.Some? && cell(q.coord.value) == cell(c.coord.value) then 1 else 0)
  {
    if c.coord.Some? {
      var p := InCell(cell, cell(c.coord.value));
      FilterConcat(p, scope, [q]);
      assert Filter(p, [q]) == if p(q) then [q] else [] by {
        assert [q][1..] == [];
      }
    }
  }

  /** The divisor of the normalisation: the spread `hi - lo` of the counts,
      or 1 when they are all equal. */
  function Denom(lo: int, hi: int): real
  {
    if lo < hi then (hi - lo) as real else 1.0
  }

  /** One normalised value: `(x - lo) / denom`, where `denom` is the spread
      `hi - lo` or 1 when all counts are equal. */
  function Norm(x: int, lo: int, hi: int): (v: real)
    requires lo <= x <= hi
    ensures 0.0 <= v <= 1.0
    ensures v == 0.0 <==> x == lo
    ensures lo < hi ==> (v == 1.0 <==> x == hi)
    ensures v == (x - lo) as real / Denom(lo, hi)
  {
    var denom: real := if hi - lo != 0 then (hi - lo) as real else 1.0;
    NormBounds((x - lo) as real, denom, (hi - lo) as real);
    (x - lo) as real / denom
  }

  lemma NormBounds(a: real, d: real, spread: real)
    requires 0.0 <= a <= spread && 0.0 < d && (spread == d || spread == 0.0)
    ensures 0.0 <= a / d <= 1.0
    ensures a / d == 0.0 <==> a == 0.0
    ensures a / d == 1.0 <==> a == d
  {
    if a / d == 1.0 {
      assert a == (a / d) * d;
    }
  }

  lemma NormMonotone(x: int, y: int, lo: int, hi: int)
    requires lo <= x <= y <= hi
    ensures Norm(x, lo, hi) <= Norm(y, lo, hi)
  {
    var denom: real := if hi - lo != 0 then (hi - lo) as real else 1.0;
    DivMonotone((x - lo) as real, (y - lo) as real, denom);
  }

  lemma DivMonotone(a: real, b: real, d: real)
    requires a <= b && 0.0 < d
    ensures a / d <= b / d
  {
    assert b / d - a / d == (b - a) / d;
  }

  /** `loc_norm` over the drawn rows: each count less the least count,
      divided by the spread of the counts (or 1 when they are all equal), so
      0 for the least crowded cell and 1 for the most crowded one when they
      differ. */
  function Normalise(counts: seq<nat>): (norms: seq<real>)
    requires |counts| > 0
    ensures |norms| == |counts|
    ensures forall i :: 0 <= i < |counts| ==> 0.0 <= norms[i] <= 1.0
    ensures forall i :: 0 <= i < |counts| ==> (norms[i] == 0.0 <==> counts[i] == SeqMin(counts))
    ensures SeqMin(counts) < SeqMax(counts) ==>
              forall i :: 0 <= i < |counts| ==> (norms[i] == 1.0 <==> counts[i] == SeqMax(counts))
    ensures forall i :: 0 <= i < |counts| ==>
              norms[i] == (counts[i] - SeqMin(counts)) as real / Denom(SeqMin(counts), SeqMax(counts))
    ensures forall i :: 0 <= i < |counts| ==> SeqMin(counts) <= counts[i] <= SeqMax(counts)
    ensures forall i :: 0 <= i < |counts| ==> norms[i] == Norm(counts[i], SeqMin(counts), SeqMax(counts))
  {
    var lo, hi := SeqMin(counts), SeqMax(counts);
    assert forall i :: 0 <= i < |counts| ==> lo <= counts[i] <= hi by {
      forall i | 0 <= i < |counts|
        ensures lo <= counts[i] <= hi
      {
        assert counts[i] in counts;
      }
    }
    var norms := seq(|counts|, i requires 0 <= i < |counts| => Norm(counts[i], lo, hi));
    forall i | 0 <= i < |counts|
      ensures norms[i] == Norm(counts[i], lo, hi)
      ensures norms[i] == (counts[i] - lo) as real / Denom(lo, hi)
    {
    }
    norms
  }

  /** The divisor undoes the normalisation: a normalised value times the
      divisor is the count's distance from the least crowded count. */
  lemma NormScaled(x: int, lo: int, hi: int)
    requires lo <= x <= hi
    ensures Norm(x, lo, hi) * Denom(lo, hi) == (x - lo) as real
  {
  }

  lemma NormaliseMonotone(counts: seq<nat>, i: nat, j: nat)
    requires i < |counts| && j < |counts| && counts[i] <= counts[j]
    ensures Normalise(counts)[i] <= Normalise(counts)[j]
  {
    assert counts[i] in counts && counts[j] in counts;
    NormMonotone(counts[i], counts[j], SeqMin(counts), SeqMax(counts));
  }

  /** `255 - loc_norm * 255`, clipped to [0, 255]. */
  function Green(norm: real): (g: real)
    ensures 0.0 <= g <= 255.0
    ensures 0.0 <= norm <= 1.0 ==> g == 255.0 - norm * 255.0
    ensures norm <= 0.0 ==> g == 255.0
    ensures norm >= 1.0 ==> g == 0.0
  {
    var g := 255.0 - norm * 255.0;
    if g < 0.0 then 0.0 else if g > 255.0 then 255.0 else g
  }

  /** A dot: red fixed at 255, blue at 0 (alpha 180 is constant). */
  datatype DotColour = DotColour(r: int, g: real, b: int)

  /** The colour of every dot of the scope. Sampling beyond 8000 points is
      not modelled: every row of the scope is drawn. */
  function DotColours(scope: seq<Collision>, cell: Point -> Point): (dots: seq<DotColour>)
    requires |scope| > 0
    ensures |dots| == |scope|
    ensures forall i :: 0 <= i < |scope| ==> dots[i].r == 255 && dots[i].b == 0 && 0.0 <= dots[i].g <= 255.0
    ensures var counts := LocationCounts(scope, cell);
            forall i :: 0 <= i < |scope| ==>
              SeqMin(counts) <= counts[i] <= SeqMax(counts)
              && dots[i].g == 255.0 - 255.0 * Norm(counts[i], SeqMin(counts), SeqMax(counts))
  {
    var counts := LocationCounts(scope, cell);
    var norms := Normalise(counts);
    var dots := seq(|scope|, i requires 0 <= i < |scope| => DotColour(255, Green(norms[i]), 0));
    forall i | 0 <= i < |scope|
      ensures SeqMin(counts) <= counts[i] <= SeqMax(counts)
      ensures dots[i].g == 255.0 - 255.0 * Norm(counts[i], SeqMin(counts), SeqMax(counts))
    {
    }
    dots
  }

  function LocationCounts(scope: seq<Collision>, cell: Point -> Point): (counts: seq<nat>)
    ensures |counts| == |scope|
    ensures forall i :: 0 <= i < |scope| ==> counts[i] == LocationCount(scope, cell, scope[i])
  {
    seq(|scope|, i requires 0 <= i < |scope| => LocationCount(scope, cell, scope[i]))
  }

  /** More crowded cells are drawn redder: the green channel never rises
      with the location count, the least crowded cell is yellow and, when
      counts differ, the most crowded one is red. */
  lemma DotColoursOrder(scope: seq<Collision>, cell: Point -> Point, i: nat, j: nat)
    requires i < |scope| && j < |scope|
    ensures LocationCount(scope, cell, scope[i]) <= LocationCount(scope, cell, scope[j]) ==>
              DotColours(scope, cell)[j].g <= DotColours(scope, cell)[i].g
    ensures LocationCount(scope, cell, scope[i]) == SeqMin(LocationCounts(scope, cell)) ==>
              DotColours(scope, cell)[i].g == 255.0
    ensures SeqMin(LocationCounts(scope, cell)) < SeqMax(LocationCounts(scope, cell))
            && LocationCount(scope, cell, scope[i]) == SeqMax(LocationCounts(scope, cell)) ==>
              DotColours(scope, cell)[i].g == 0.0
  {
    var counts := LocationCounts(scope, cell);
    if counts[i] <= counts[j] {
      NormaliseMonotone(counts, i, j);
    }
  }

  // ---------------------------------------------------------------
  // Commute route
  // ---------------------------------------------------------------

  datatype RouteSummary = RouteSummary(onRoute: nat, total: nat, ratio: real)

  /** The share of the scoped collisions lying inside the route buffer; the
      buffer test is the parameter `inBuffer`. The ratio is 0 without rows. */
  function RouteStats(points: seq<Collision>, inBuffer: Collision -> bool): (s: RouteSummary)
    ensures s.total == |points|
    ensures s.onRoute == |Filter(inBuffer, points)| <= s.total
    ensures 0.0 <= s.ratio <= 1.0
    ensures s.ratio == 1.0 <==> s.total > 0 && forall c :: c in points ==> inBuffer(c)
    ensures s.ratio == 0.0 <==> forall c :: c in points ==> !inBuffer(c)
  {
    var on := |Filter(inBuffer, points)|;
    var total := |points|;
    NoneInside(inBuffer, points);
    RouteSummary(on, total, Ratio(on, total))
  }

  /** `part / whole if whole > 0 else 0.0`. */
  function Ratio(part: nat, whole: nat): (r: real)
    requires part <= whole
    ensures 0.0 <= r <= 1.0
    ensures whole > 0 ==> r * whole as real == part as real
    ensures r == 1.0 <==> whole > 0 && part == whole
    ensures r == 0.0 <==> part == 0
  {
    if whole > 0 then
      Share(part as real, whole as real);
      part as real / whole as real
    else 0.0
  }

  lemma NoneInside(inBuffer: Collision -> bool, points: seq<Collision>)
    ensures |Filter(inBuffer, points)| == 0 <==> forall c :: c in points ==> !inBuffer(c)
  {
    var inside := Filter(inBuffer, points);
    if |inside| > 0 {
      assert inside[0] in inside;
    }
  }

  lemma Share(part: real, whole: real)
    requires 0.0 <= part <= whole && 0.0 < whole
    ensures 0.0 <= part / whole <= 1.0
    ensures (part / whole) * whole == part
    ensures part / whole == 1.0 <==> part == whole
    ensures part / whole == 0.0 <==> part == 0.0
  {
    NormBounds(part, whole, whole);
  }

  // ---------------------------------------------------------------
  // Histograms
  // ---------------------------------------------------------------

  function Sum(h: seq<nat>): nat
    decreases |h|
  {
    if |h| == 0 then 0 else h[0] + Sum(h[1..])
  }

  lemma {:induction false} SumUpdate(h: seq<nat>, k: nat, v: nat)
    requires k < |h|
    ensures Sum(h[k := v]) + h[k] == Sum(h) + v
    decreases |h|
  {
    if k > 0 {
      assert h[k := v][1..] == h[1..][k - 1 := v];
      SumUpdate(h[1..], k - 1, v);
    }
  }

  lemma {:induction false} SumZeros(n: nat)
    ensures Sum(seq(n, _ => 0)) == 0
  {
    if n > 0 {
      assert seq(n, _ => 0)[1..] == seq(n - 1, _ => 0);
      SumZeros(n - 1);
    }
  }

  /** Adds one to bin `k`; a key outside the bins changes nothing. */
  function Bump(h: seq<nat>, k: int): (r: seq<nat>)
    ensures |r| == |h|
  {
    if 0 <= k < |h| then h[k := h[k] + 1] else h
  }

  function KeyIs<T>(key: T -> int, b: int): T -> bool
  {
    x => key(x) == b
  }

  function KeyInBins<T>(key: T -> int, n: nat): T -> bool
  {
    x => 0 <= key(x) < n
  }

  /** `value_counts().reindex(range(n), fill_value=0)`: `n` bins, bin `b`
      holding the number of rows whose key is `b`. */
  function Tally<T(!new)>(key: T -> int, rows: seq<T>, n: nat): (h: seq<nat>)
    ensures |h| == n
    ensures forall b :: 0 <= b < n ==> h[b] == |Filter(KeyIs(key, b), rows)|
    decreases |rows|
  {
    if |rows| == 0 then seq(n, _ => 0)
    else
      var rest := Tally(key, rows[1..], n);
      TallyStep(key, rows, n);
      Bump(rest, key(rows[0]))
  }

  lemma TallyStep<T(!new)>(key: T -> int, rows: seq<T>, n: nat)
    requires |rows| > 0
    ensures forall b :: 0 <= b < n ==>
              |Filter(KeyIs(key, b), rows)| == (if key(rows[0]) == b then 1 else 0) + |Filter(KeyIs(key, b), rows[1..])|
  {
    forall b | 0 <= b < n
      ensures |Filter(KeyIs(key, b), rows)| == (if key(rows[0]) == b then 1 else 0) + |Filter(KeyIs(key, b), rows[1..])|
    {
      FilterHeadLength(KeyIs(key, b), rows);
    }
  }

  /** The bins add up to the number of rows whose key falls in a bin. */
  lemma {:induction false} TallySum<T(!new)>(key: T -> int, rows: seq<T>, n: nat)
    ensures Sum(Tally(key, rows, n)) == |Filter(KeyInBins(key, n), rows)|
    decreases |rows|
  {
    if |rows| == 0 {
      SumZeros(n);
    } else {
      var rest := Tally(key, rows[1..], n);
      var k := key(rows[0]);
      assert Tally(key, rows, n) == Bump(rest, k);
      TallySum(key, rows[1..], n);
      FilterHeadLength(KeyInBins(key, n), rows);
      assert KeyInBins(key, n)(rows[0]) == (0 <= k < n);
      SumBump(rest, k);
    }
  }

  /** Bumping a bin adds one to the total; a key outside the bins adds none. */
  lemma SumBump(h: seq<nat>, k: int)
    ensures Sum(Bump(h, k)) == Sum(h) + (if 0 <= k < |h| then 1 else 0)
  {
    if 0 <= k < |h| {
      var v: nat := h[k] + 1;
      assert Bump(h, k) == h[k := v];
      SumUpdate(h, k, v);
    } else {
      assert Bump(h, k) == h;
    }
  }

  /** The month bin of a row, 0 for January; an unparsed date has none. */
  function MonthKey(c: Collision): int
  {
    if c.date.Some? then c.date.value.month - 1 else -1
  }

  function InMonth(m: int): Collision -> bool
  {
    (c: Collision) => c.date.Some? && c.date.value.month == m
  }

  /** Collisions per calendar month, January first; undated rows are not
      counted anywhere. */
  function MonthHistogram(rows: seq<Collision>): (h: seq<nat>)
    ensures |h| == 12
    ensures forall m :: 1 <= m <= 12 ==> h[m - 1] == |Filter(InMonth(m), rows)|
  {
    var h := Tally(MonthKey, rows, 12);
    forall m | 1 <= m <= 12
      ensures h[m - 1] == |Filter(InMonth(m), rows)|
    {
      FilterSame(KeyIs(MonthKey, m - 1), InMonth(m), rows);
    }
    h
  }

  /** The month bins add up to the number of dated rows. */
  lemma MonthHistogramSum(rows: seq<Collision>)
    ensures Sum(MonthHistogram(rows)) == |Filter(Dated(), rows)|
  {
    assert MonthHistogram(rows) == Tally(MonthKey, rows, 12);
    TallySum(MonthKey, rows, 12);
    forall c: Collision
      ensures KeyInBins(MonthKey, 12)(c) == Dated()(c)
    {
      MonthKeyInBins(c);
    }
    FilterSame(KeyInBins(MonthKey, 12), Dated(), rows);
  }

  /** Exactly the dated rows have a month bin. */
  lemma MonthKeyInBins(c: Collision)
    ensures KeyInBins(MonthKey, 12)(c) == Dated()(c)
  {
    if c.date.Some? {
      var m: Month := c.date.value.month;
      assert MonthKey(c) == m - 1;
    } else {
      assert MonthKey(c) == -1;
    }
  }

  function Dated(): Collision -> bool
  {
    (c: Collision) => c.date.Some?
  }

  /** `to_numeric(...).fillna(0).astype(int) // 100`, clipped to [0, 23]:
      a missing time counts as midnight, the cast truncates toward zero and
      `//` floors (Dafny's `/` by a positive divisor floors too). */
  function Hour(time: Option<real>): (h: int)
    ensures 0 <= h <= 23
  {
    var t := if time.Some? then Trunc(time.value) else 0;
    var h := t / 100;
    if h < 0 then 0 else if h > 23 then 23 else h
  }

  /** An HHMM clock time lands in its hour. */
  lemma HourOfClockTime(hh: int, mm: int)
    requires 0 <= hh <= 23 && 0 <= mm <= 59
    ensures Hour(Some((hh * 100 + mm) as real)) == hh
  {
    assert Trunc((hh * 100 + mm) as real) == hh * 100 + mm;
  }

  /** Fractions of a minute are dropped, and out-of-range times are clipped. */
  lemma HourEdges(t: real)
    ensures -100.0 < t < 100.0 ==> Hour(Some(t)) == 0
    ensures t >= 2300.0 ==> Hour(Some(t)) == 23
    ensures t < 0.0 ==> Hour(Some(t)) == 0
    ensures Hour(None) == 0
  {
  }

  function HourKey(c: Collision): int
  {
    Hour(c.time)
  }

  function AtHour(b: int): Collision -> bool
  {
    (c: Collision) => Hour(c.time) == b
  }

  /** Collisions per hour of day; every row lands in exactly one of the 24 bins. */
  function HourHistogram(rows: seq<Collision>): (h: seq<nat>)
    ensures |h| == 24
    ensures forall b :: 0 <= b < 24 ==> h[b] == |Filter(AtHour(b), rows)|
  {
    var h := Tally(HourKey, rows, 24);
    forall b | 0 <= b < 24
      ensures h[b] == |Filter(AtHour(b), rows)|
    {
      FilterSame(KeyIs(HourKey, b), AtHour(b), rows);
    }
    h
  }

  /** No row is dropped from the hour histogram. */
  lemma HourHistogramSum(rows: seq<Collision>)
    ensures Sum(HourHistogram(rows)) == |rows|
  {
    TallySum(HourKey, rows, 24);
    forall c: Collision
      ensures KeyInBins(HourKey, 24)(c)
    {
      assert 0 <= HourKey(c) < 24;
    }
  }
}

=== FILE: common.dfy ===
/**
 Shared vocabulary of the collision dashboard: optional values, WGS84
 positions, calendar dates, RGB triples, and the small sequence combinators
 (filtering, first match, minimum and maximum) that every page is built from.
 A pandas boolean mask `df[mask]` is modelled throughout as `Filter`.
 */
module Common {

  /** A value that may be missing; pandas' NaN/NaT become `None`. */
  datatype Option<+T> = None | Some(value: T)

  /** A position in WGS84 degrees. */
  datatype Point = Point(lat: real, lon: real)

  type Month = m: int | 1 <= m <= 12 witness 1

  /** A parsed calendar date; only the fields the dashboard reads. */
  datatype Date = Date(year: int, month: Month, day: int)

  /** A colour as the (r, g, b) triple handed to the map layers. */
  datatype Rgb = Rgb(r: int, g: int, b: int)

  /** The inclusive year-range mask `(Year >= lo) & (Year <= hi)`; a missing
      year compares false on both sides and is never kept. */
  predicate InYearRange(year: Option<int>, lo: int, hi: int)
  {
    year.Some? && lo <= year.value <= hi
  }

  /** Keeps the elements that satisfy `p`, in their original order. */
  function Filter<T(!new)>(p: T -> bool, s: seq<T>): (r: seq<T>)
    ensures |r| <= |s|
    ensures forall x :: x in r <==> x in s && p(x)
    ensures forall x :: multiset(r)[x] == if p(x) then multiset(s)[x] else 0
    ensures |r| == |s| <==> forall x :: x in s ==> p(x)
    decreases |s|
  {
    if |s| == 0 then []
    else
      assert s == [s[0]] + s[1..];
      if p(s[0]) then [s[0]] + Filter(p, s[1..]) else Filter(p, s[1..])
  }

  /** The head and tail of a concatenation whose first part is not empty. */
  lemma ConcatTail<T>(a: seq<T>, b: seq<T>)
    requires |a| > 0
    ensures (a + b)[0] == a[0] && (a + b)[1..] == a[1..] + b
  {
  }

  lemma ConcatAssoc<T>(x: seq<T>, y: seq<T>, z: seq<T>)
    ensures x + (y + z) == (x + y) + z
  {
  }

  /** Filtering distributes over concatenation, so it keeps relative order. */
  lemma {:induction false} FilterConcat<T(!new)>(p: T -> bool, a: seq<T>, b: seq<T>)
    ensures Filter(p, a + b) == Filter(p, a) + Filter(p, b)
    decreases |a|
  {
    if |a| == 0 {
      assert a + b == b;
    } else {
      assert (a + b)[1..] == a[1..] + b;
      FilterConcat(p, a[1..], b);
    }
  }

  lemma FilterHeadLength<T(!new)>(p: T -> bool, s: seq<T>)
    requires |s| > 0
    ensures |Filter(p, s)| == (if p(s[0]) then 1 else 0) + |Filter(p, s[1..])|
  {
  }

  /** A second, stricter mask applied after a first one it implies gives the
      same rows as applying the stricter mask alone. */
  lemma {:induction false} FilterAbsorb<T(!new)>(p: T -> bool, q: T -> bool, s: seq<T>)
    requires forall x :: q(x) ==> p(x)
    ensures Filter(q, Filter(p, s)) == Filter(q, s)
    decreases |s|
  {
    if |s| > 0 {
      FilterAbsorb(p, q, s[1..]);
    }
  }

  /** A position at which `x` occurs in `xs`. */
  lemma IndexOf<T>(xs: seq<T>, x: T) returns (k: nat)
    requires x in xs
    ensures k < |xs| && xs[k] == x
  {
    k :| k < |xs| && xs[k] == x;
  }

  lemma MultisetHead<T>(s: seq<T>, x: T)
    requires |s| > 0
    ensures multiset(s)[x] == (if s[0] == x then 1 else 0) + multiset(s[1..])[x]
  {
    assert s == [s[0]] + s[1..];
  }

  /** Applying two masks one after the other keeps the rows passing both. */
  lemma {:induction false} FilterBoth<T(!new)>(p: T -> bool, q: T -> bool, both: T -> bool, s: seq<T>)
    requires forall x :: both(x) == (p(x) && q(x))
    ensures Filter(q, Filter(p, s)) == Filter(both, s)
    decreases |s|
  {
    if |s| > 0 {
      FilterBoth(p, q, both, s[1..]);
    }
  }

  /** A weaker mask keeps at least as many rows. */
  lemma {:induction false} FilterWeaker<T(!new)>(p: T -> bool, q: T -> bool, s: seq<T>)
    requires forall x :: p(x) ==> q(x)
    ensures |Filter(p, s)| <= |Filter(q, s)|
    decreases |s|
  {
    if |s| > 0 {
      FilterWeaker(p, q, s[1..]);
    }
  }

  /** Two masks that agree everywhere keep the same rows. */
  lemma {:induction false} FilterSame<T(!new)>(p: T -> bool, q: T -> bool, s: seq<T>)
    requires forall x :: p(x) == q(x)
    ensures Filter(p, s) == Filter(q, s)
    decreases |s|
  {
    if |s| > 0 {
      FilterSame(p, q, s[1..]);
    }
  }

  /** `less` is a strict total order, as Python's `<` is on ints and on str. */
  ghost predicate StrictTotalOrder<T(!new)>(less: (T, T) -> bool)
  {
    (forall a :: !less(a, a))
    && (forall a, b, c :: less(a, b) && less(b, c) ==> less(a, c))
    && (forall a, b :: a != b ==> less(a, b) || less(b, a))
  }

  predicate SortedBy<T>(less: (T, T) -> bool, s: seq<T>)
  {
    forall i, j :: 0 <= i < j < |s| ==> less(s[i], s[j])
  }

  /** Adds `y` to a sorted list unless it is already there. */
  function InsertSorted<T(==,!new)>(less: (T, T) -> bool, s: seq<T>, y: T): (r: seq<T>)
    requires StrictTotalOrder(less) && SortedBy(less, s)
    ensures SortedBy(less, r)
    ensures forall z :: z in r <==> z in s || z == y
    decreases |s|
  {
    if |s| == 0 then [y]
    else if less(y, s[0]) then [y] + s
    else if y == s[0] then s
    else
      var rest := InsertSorted(less, s[1..], y);
      assert forall z :: z in rest ==> less(s[0], z);
      [s[0]] + rest
  }

  /** `sorted(set(xs))`: the distinct values, each once, in increasing order. */
  function SortedDistinct<T(==,!new)>(less: (T, T) -> bool, xs: seq<T>): (r: seq<T>)
    requires StrictTotalOrder(less)
    ensures SortedBy(less, r)
    ensures forall z :: z in r <==> z in xs
    decreases |xs|
  {
    if |xs| == 0 then []
    else
      var r := InsertSorted(less, SortedDistinct(less, xs[1..]), xs[0]);
      assert forall z :: z in xs <==> z == xs[0] || z in xs[1..] by {
        assert xs == [xs[0]] + xs[1..];
      }
      r
  }

  /** A sorted list holds each value once. */
  lemma SortedByDistinct<T(!new)>(less: (T, T) -> bool, s: seq<T>)
    requires StrictTotalOrder(less) && SortedBy(less, s)
    ensures forall i, j :: 0 <= i < j < |s| ==> s[i] != s[j]
  {
  }

  function IntLess(): (int, int) -> bool
  {
    (a: int, b: int) => a < b
  }

  lemma IntLessOrder()
    ensures StrictTotalOrder(IntLess())
  {
  }

  /** The positions 0 .. n-1, the ids `reset_index` hands out. */
  function Range(n: nat): (r: seq<nat>)
    ensures |r| == n
    ensures forall i :: 0 <= i < n ==> r[i] == i
  {
    seq(n, i => i)
  }

  /** Every position below `n` occurs exactly once. */
  lemma {:induction false} RangeCount(n: nat, i: nat)
    ensures multiset(Range(n))[i] == if i < n then 1 else 0
  {
    if n > 0 {
      assert Range(n) == Range(n - 1) + [n - 1];
      RangeCount(n - 1, i);
    }
  }

  /** The position of the first element satisfying `p`, if any. */
  function FirstIndex<T>(p: T -> bool, s: seq<T>): (r: Option<nat>)
    ensures r.None? <==> forall i :: 0 <= i < |s| ==> !p(s[i])
    ensures r.Some? ==> r.value < |s| && p(s[r.value])
    ensures r.Some? ==> forall j :: 0 <= j < r.value ==> !p(s[j])
    decreases |s|
  {
    if |s| == 0 then None
    else if p(s[0]) then Some(0)
    else match FirstIndex(p, s[1..])
      case None => None
      case Some(k) => Some(k + 1)
  }

  /** `Series.min()` of a non-empty column. */
  function SeqMin(s: seq<int>): (m: int)
    requires |s| > 0
    ensures m in s
    ensures forall x :: x in s ==> m <= x
  {
    if |s| == 1 then s[0]
    else
      var rest := SeqMin(s[1..]);
      assert s == [s[0]] + s[1..];
      if s[0] <= rest then s[0] else rest
  }

  /** `Series.max()` of a non-empty column. */
  function SeqMax(s: seq<int>): (m: int)
    requires |s| > 0
    ensures m in s
    ensures forall x :: x in s ==> x <= m
  {
    if |s| == 1 then s[0]
    else
      var rest := SeqMax(s[1..]);
      assert s == [s[0]] + s[1..];
      if s[0] >= rest then s[0] else rest
  }

  /** Python's `int(x)` on a float: truncation toward zero. */
  function Trunc(x: real): (r: int)
    ensures 0.0 <= x ==> r as real <= x < r as real + 1.0
    ensures x < 0.0 ==> r as real - 1.0 < x <= r as real
  {
    if 0.0 <= x then x.Floor else -((-x).Floor)
  }
}

=== FILE: load_data.dfy ===
/**
 The record store: typed collision and school tables built from raw CSV rows
 (utils/load_data.py, repeated verbatim at the top of
 data/preprocess_school_data.py). Reading files is left to the caller;
 `pd.to_datetime` is the caller-supplied `parseDate`.
 */
module LoadData {
  import opened Common
  import opened Text

  /** One row of the collision CSV, restricted to the columns the dashboard
      reads. `location` is the "(lat, lon)" cell, `None` when empty; `year`
      is the file's own Year cell, `None` when empty or when the file has no
      Year column; `time` is "Time Occurred" after numeric coercion. */
  datatype RawCollision = RawCollision(
    drNumber: string,
    location: Option<string>,
    dateText: string,
    year: Option<int>,
    time: Option<real>,
    area: string,
    address: string)

  /** A loaded collision: `coord` holds the parsed lat/lon columns (absent
      only when the table has no Location column at all); `year` is the Year
      column as the table carries it, which the loader never derives. */
  datatype Collision = Collision(
    drNumber: string,
    coord: Option<Point>,
    date: Option<Date>,
    year: Option<int>,
    time: Option<real>,
    area: string,
    address: string)

  /** `df["Year"]`: the year column every page filters on. */
  function Year(c: Collision): Option<int>
  {
    c.year
  }

  /** `df["Date Occurred"].dt.year`: missing for an unparsed date. */
  function DateYear(c: Collision): Option<int>
  {
    if c.date.Some? then Some(c.date.value.year) else None
  }

  /** `df["Year"] = df["Date Occurred"].dt.year`: every row's year becomes
      the year of its date, and nothing else changes. */
  function WithDateYears(collisions: seq<Collision>): (r: seq<Collision>)
    ensures |r| == |collisions|
    ensures forall k :: 0 <= k < |r| ==> Year(r[k]) == DateYear(collisions[k])
    ensures forall k :: 0 <= k < |r| ==> r[k].(year := collisions[k].year) == collisions[k]
  {
    seq(|collisions|, k requires 0 <= k < |collisions| => collisions[k].(year := DateYear(collisions[k])))
  }

  /** Deriving the years a second time changes nothing: the year depends on
      the date alone. */
  lemma WithDateYearsIdempotent(collisions: seq<Collision>)
    ensures WithDateYears(WithDateYears(collisions)) == WithDateYears(collisions)
  {
    var once := WithDateYears(collisions);
    var twice := WithDateYears(once);
    forall k | 0 <= k < |once|
      ensures twice[k] == once[k]
    {
      assert DateYear(once[k]) == DateYear(collisions[k]);
    }
  }

  /** Parses a Location cell: strip the parentheses, split on commas, strip
      blanks from the first two pieces and read each as a number. */
  function ParseLocation(text: string): Option<Point>
  {
    var parts := Split(Strip(text, IsParen), ',');
    var lat := ParseNumber(Strip(parts[0], IsSpace));
    var lon := if |parts| > 1 then ParseNumber(Strip(parts[1], IsSpace)) else None;
    if lat.Some? && lon.Some? then Some(Point(lat.value, lon.value)) else None
  }

  lemma FormatDecimalEnds(d: Decimal)
    requires ValidDecimal(d)
    ensures var t := FormatDecimal(d);
      |t| > 0 && ',' !in t && (t[0] == '-' || t[0] == '.' || IsDigit(t[0])) && IsDigit(t[|t| - 1])
  {
    var t := FormatDecimal(d);
    var w := DigitsText(d.whole);
    if |d.frac| == 0 {
      assert t == (if d.negative then "-" else "") + w;
    } else {
      var f := DigitsText(d.frac);
      assert t == (if d.negative then "-" else "") + w + "." + f;
    }
  }

  /** How `ParseLocation` reads a cell once its pieces are known. */
  lemma ParseLocationPieces(text: string, x: string, y: string, lat: real, lon: real)
    requires Split(Strip(text, IsParen), ',') == [x, y]
    requires ParseNumber(Strip(x, IsSpace)) == Some(lat)
    requires ParseNumber(Strip(y, IsSpace)) == Some(lon)
    ensures ParseLocation(text) == Some(Point(lat, lon))
  {
  }

  lemma StripLocationParens(fa: string, fb: string)
    requires |fa| > 0 && |fb| > 0
    requires !IsParen(fa[0]) && !IsParen(fb[|fb| - 1])
    ensures Strip("(" + fa + ", " + fb + ")", IsParen) == fa + ", " + fb
  {
    var body := fa + ", " + fb;
    assert "(" + fa + ", " + fb + ")" == "(" + body + ")";
    assert body[0] == fa[0] && body[|body| - 1] == fb[|fb| - 1];
    StripPadded("(", body, ")", IsParen);
  }

  lemma SplitLocationBody(fa: string, fb: string)
    requires ',' !in fa && ',' !in fb
    ensures Split(fa + ", " + fb, ',') == [fa, " " + fb]
  {
    assert fa + ", " + fb == Join([fa, " " + fb], ',');
    assert ',' !in " " + fb;
    SplitJoin([fa, " " + fb], ',');
  }

  lemma StripBlankPrefix(pre: string, f: string)
    requires pre == "" || pre == " "
    requires |f| > 0 && !IsSpace(f[0]) && !IsSpace(f[|f| - 1])
    ensures Strip(pre + f, IsSpace) == f
  {
    StripPadded(pre, f, "", IsSpace);
    assert pre + f + "" == pre + f;
  }

  /** A number's text that can stand between the parentheses and the comma:
      no comma inside, no bracket or blank at either end, and it parses. */
  predicate PieceReady(t: string, v: real)
  {
    |t| > 0 && ',' !in t
    && !IsParen(t[0]) && !IsSpace(t[0]) && !IsParen(t[|t| - 1]) && !IsSpace(t[|t| - 1])
    && ParseNumber(t) == Some(v)
  }

  /** Any two number texts without commas or blank/parenthesis ends, written
      as "(x, y)", read back as the two numbers. */
  lemma LocationText(fa: string, fb: string, lat: real, lon: real)
    requires PieceReady(fa, lat) && PieceReady(fb, lon)
    ensures ParseLocation("(" + fa + ", " + fb + ")") == Some(Point(lat, lon))
  {
    StripLocationParens(fa, fb);
    SplitLocationBody(fa, fb);
    StripBlankPrefix("", fa);
    assert "" + fa == fa;
    StripBlankPrefix(" ", fb);
    ParseLocationPieces("(" + fa + ", " + fb + ")", fa, " " + fb, lat, lon);
  }

  /** A Location cell written as "(a, b)" reads back as the point (a, b). */
  lemma LocationRoundTrip(a: Decimal, b: Decimal)
    requires ValidDecimal(a) && ValidDecimal(b)
    ensures ParseLocation("(" + FormatDecimal(a) + ", " + FormatDecimal(b) + ")")
            == Some(Point(DecimalValue(a), DecimalValue(b)))
  {
    FormattedPiece(a);
    FormattedPiece(b);
    LocationText(FormatDecimal(a), FormatDecimal(b), DecimalValue(a), DecimalValue(b));
  }

  lemma FormattedPiece(d: Decimal)
    requires ValidDecimal(d)
    ensures PieceReady(FormatDecimal(d), DecimalValue(d))
  {
    FormatDecimalEnds(d);
    ParseFormat(d);
  }

  lemma ParseLatitudeExample()
    ensures ParseNumber("34.05") == Some(34.05)
  {
    var d := Decimal(false, [3, 4], [0, 5]);
    assert DigitsText([3, 4]) == "34";
    assert DigitsText([0, 5]) == "05";
    assert FormatDecimal(d) == "34.05";
    assert WholeValue([3, 4]) == 34;
    assert FracValue([0, 5]) == 0.05;
    ParseFormat(d);
  }

  lemma ParseLongitudeExample()
    ensures ParseNumber("-118.25") == Some(-118.25)
  {
    var d := Decimal(true, [1, 1, 8], [2, 5]);
    assert DigitsText([1, 1, 8]) == "118";
    assert DigitsText([2, 5]) == "25";
    assert FormatDecimal(d) == "-118.25";
    assert WholeValue([1, 1, 8]) == 118 by {
      assert [1, 1, 8][..2] == [1, 1];
      assert [1, 1][..1] == [1];
    }
    assert FracValue([2, 5]) == 0.25;
    ParseFormat(d);
  }

  /** The Location cell of Los Angeles City Hall reads back exactly. */
  lemma LocationExample(cell: string)
    requires cell == "(34.05, -118.25)"
    ensures ParseLocation(cell) == Some(Point(34.05, -118.25))
  {
    assert cell == "(" + "34.05" + ", " + "-118.25" + ")";
    LocationExamplePieces(cell);
  }

  lemma LocationExamplePieces(cell: string)
    requires cell == "(" + "34.05" + ", " + "-118.25" + ")"
    ensures ParseLocation(cell) == Some(Point(34.05, -118.25))
  {
    LatitudePiece();
    LongitudePiece();
    LocationText("34.05", "-118.25", 34.05, -118.25);
  }

  lemma LatitudePiece()
    ensures PieceReady("34.05", 34.05)
  {
    ParseLatitudeExample();
  }

  lemma LongitudePiece()
    ensures PieceReady("-118.25", -118.25)
  {
    ParseLongitudeExample();
  }

  /** A row survives `dropna(subset=["lat", "lon"])` when its cell parses. */
  predicate Locatable(raw: RawCollision)
  {
    raw.location.Some? && ParseLocation(raw.location.value).Some?
  }

  function LoadRow(raw: RawCollision, hasLocationColumn: bool, parseDate: string -> Option<Date>): Collision
  {
    Collision(
      raw.drNumber,
      if hasLocationColumn && raw.location.Some? then ParseLocation(raw.location.value) else None,
      parseDate(raw.dateText),
      raw.year,
      raw.time,
      raw.area,
      raw.address)
  }

  /** `load_collision_csv`: parse coordinates and dates, dropping the rows
      whose coordinates do not parse (only when there is a Location column). */
  function LoadCollisions(rows: seq<RawCollision>, hasLocationColumn: bool, parseDate: string -> Option<Date>)
    : (r: seq<Collision>)
    ensures |r| <= |rows|
    ensures hasLocationColumn ==> forall k :: 0 <= k < |r| ==> r[k].coord.Some?
    ensures !hasLocationColumn ==> |r| == |rows|
    ensures !hasLocationColumn ==> forall k :: 0 <= k < |r| ==> r[k] == LoadRow(rows[k], false, parseDate)
    ensures forall c :: c in r ==> exists k :: 0 <= k < |rows| && c == LoadRow(rows[k], hasLocationColumn, parseDate)
  {
    if |rows| == 0 then []
    else
      var c := LoadRow(rows[0], hasLocationColumn, parseDate);
      var rest := LoadCollisions(rows[1..], hasLocationColumn, parseDate);
      FromSomeRow(rows, rest, hasLocationColumn, parseDate);
      if !hasLocationColumn || c.coord.Some? then [c] + rest else rest
  }

  /** Whether `str.split(",", expand=True)` has a second column: some
      Location cell holds a comma. A missing cell is the text "nan". */
  predicate HasSecondColumn(rows: seq<RawCollision>)
  {
    exists k :: 0 <= k < |rows| && rows[k].location.Some? && ',' in rows[k].location.value
  }

  /** `load_collision_csv` as a whole: when there is a Location column but no
      cell holds a comma, `loc[1]` raises KeyError and the load fails
      (`None`); otherwise the table is `LoadCollisions`. */
  function LoadCollisionTable(rows: seq<RawCollision>, hasLocationColumn: bool, parseDate: string -> Option<Date>)
    : (r: Option<seq<Collision>>)
    ensures r.None? <==> hasLocationColumn && !HasSecondColumn(rows)
    ensures r.Some? ==> r.value == LoadCollisions(rows, hasLocationColumn, parseDate)
  {
    if hasLocationColumn && !HasSecondColumn(rows) then None
    else Some(LoadCollisions(rows, hasLocationColumn, parseDate))
  }

  /** A cell without a comma has no longitude, so it never parses. */
  lemma NoCommaNoLocation(text: string)
    requires ',' !in text
    ensures ParseLocation(text) == None
  {
    var front := TrimStart(text, IsParen);
    assert front == text[|text| - |front|..];
    assert ',' !in front;
    var body := Strip(text, IsParen);
    assert body == front[..|body|];
    assert ',' !in body;
    SplitNoSeparator(body, ',');
  }

  /** The failure replaces a table that would be empty anyway: with no comma
      in any cell, every row's coordinates fail to parse and are dropped. */
  lemma {:induction false} NoCommaNoRows(rows: seq<RawCollision>, parseDate: string -> Option<Date>)
    requires !HasSecondColumn(rows)
    ensures LoadCollisions(rows, true, parseDate) == []
    decreases |rows|
  {
    if |rows| > 0 {
      if rows[0].location.Some? {
        assert ',' !in rows[0].location.value;
        NoCommaNoLocation(rows[0].location.value);
      }
      forall k | 0 <= k < |rows| - 1
        ensures !(rows[1..][k].location.Some? && ',' in rows[1..][k].location.value)
      {
        assert rows[1..][k] == rows[k + 1];
      }
      NoCommaNoRows(rows[1..], parseDate);
    }
  }

  /** A row loaded from the tail of the table is loaded from the table. */
  lemma FromSomeRow(rows: seq<RawCollision>, rest: seq<Collision>, hasLocationColumn: bool,
                    parseDate: string -> Option<Date>)
    requires |rows| > 0
    requires forall c :: c in rest ==> exists k :: 0 <= k < |rows[1..]| && c == LoadRow(rows[1..][k], hasLocationColumn, parseDate)
    ensures forall c :: c in [LoadRow(rows[0], hasLocationColumn, parseDate)] + rest ==>
              exists k :: 0 <= k < |rows| && c == LoadRow(rows[k], hasLocationColumn, parseDate)
  {
    forall c | c in [LoadRow(rows[0], hasLocationColumn, parseDate)] + rest
      ensures exists k :: 0 <= k < |rows| && c == LoadRow(rows[k], hasLocationColumn, parseDate)
    {
      if c in rest {
        var k :| 0 <= k < |rows[1..]| && c == LoadRow(rows[1..][k], hasLocationColumn, parseDate);
        assert rows[1..][k] == rows[k + 1];
      } else {
        assert c == LoadRow(rows[0], hasLocationColumn, parseDate);
      }
    }
  }

  /** With a Location column, a raw row yields a loaded collision exactly when
      its coordinates parse; the date never causes a drop. */
  lemma {:induction false} LoadCollisionsKeepsLocatable(rows: seq<RawCollision>, parseDate: string -> Option<Date>,
                                                       raw: RawCollision)
    requires raw in rows
    ensures LoadRow(raw, true, parseDate) in LoadCollisions(rows, true, parseDate) <==> Locatable(raw)
  {
    var c := LoadRow(raw, true, parseDate);
    assert c.coord.Some? <==> Locatable(raw);
    if raw != rows[0] {
      LoadCollisionsKeepsLocatable(rows[1..], parseDate, raw);
    }
  }

  /** Loading distributes over concatenation of the raw table: the survivors
      keep their relative order. */
  lemma {:induction false} LoadCollisionsConcat(a: seq<RawCollision>, b: seq<RawCollision>, hasLocationColumn: bool,
                                               parseDate: string -> Option<Date>)
    ensures LoadCollisions(a + b, hasLocationColumn, parseDate)
            == LoadCollisions(a, hasLocationColumn, parseDate) + LoadCollisions(b, hasLocationColumn, parseDate)
    decreases |a|
  {
    if |a| == 0 {
      assert a + b == b;
    } else {
      assert (a + b)[1..] == a[1..] + b;
      LoadCollisionsConcat(a[1..], b, hasLocationColumn, parseDate);
    }
  }

  /** One row of the schools CSV, restricted to the columns the pages read. */
  datatype RawSchool = RawSchool(
    name: string,
    latitude: Option<real>,
    longitude: Option<real>,
    category2: Option<string>,
    category3: Option<string>)

  /** A loaded school. `id` is the pandas index label, which `dropna` keeps:
      the row's position in the raw CSV, not in the loaded table. */
  datatype School = School(
    id: nat,
    name: string,
    lat: real,
    lon: real,
    category2: Option<string>,
    category3: Option<string>)

  predicate HasCoordinates(raw: RawSchool)
  {
    raw.latitude.Some? && raw.longitude.Some?
  }

  /** `s` is raw row `s.id` with Latitude/Longitude renamed to lat/lon. */
  predicate LoadedFrom(rows: seq<RawSchool>, s: School)
  {
    s.id < |rows|
    && rows[s.id].latitude == Some(s.lat)
    && rows[s.id].longitude == Some(s.lon)
    && rows[s.id].name == s.name
    && rows[s.id].category2 == s.category2
    && rows[s.id].category3 == s.category3
  }

  function LoadSchoolsFrom(rows: seq<RawSchool>, start: nat): (r: seq<School>)
    requires start <= |rows|
    ensures forall k :: 0 <= k < |r| ==> start <= r[k].id && LoadedFrom(rows, r[k])
    ensures forall j, k :: 0 <= j < k < |r| ==> r[j].id < r[k].id
    decreases |rows| - start
  {
    if start == |rows| then []
    else
      var rest := LoadSchoolsFrom(rows, start + 1);
      var raw := rows[start];
      if HasCoordinates(raw) then
        var here := School(start, raw.name, raw.latitude.value, raw.longitude.value, raw.category2, raw.category3);
        assert forall k :: 0 <= k < |rest| ==> ([here] + rest)[k + 1] == rest[k];
        [here] + rest
      else rest
  }

  /** `load_schools_csv`: drop rows missing Latitude or Longitude, rename
      them lat/lon, keep the raw row labels as ids. */
  function LoadSchools(rows: seq<RawSchool>): (r: seq<School>)
    ensures forall k :: 0 <= k < |r| ==> LoadedFrom(rows, r[k])
    ensures forall j, k :: 0 <= j < k < |r| ==> r[j].id < r[k].id
  {
    LoadSchoolsFrom(rows, 0)
  }

  lemma {:induction false} LoadSchoolsFromComplete(rows: seq<RawSchool>, start: nat, i: nat)
    requires start <= i < |rows| && HasCoordinates(rows[i])
    ensures exists k :: 0 <= k < |LoadSchoolsFrom(rows, start)| && LoadSchoolsFrom(rows, start)[k].id == i
    decreases |rows| - start
  {
    var r := LoadSchoolsFrom(rows, start);
    if i == start {
      assert r[0].id == i;
    } else {
      LoadSchoolsFromComplete(rows, start + 1, i);
      var rest := LoadSchoolsFrom(rows, start + 1);
      var k :| 0 <= k < |rest| && rest[k].id == i;
      if HasCoordinates(rows[start]) {
        assert r[k + 1] == rest[k];
      }
    }
  }

  /** A raw school row appears in the loaded table exactly when it has both
      coordinates. */
  lemma LoadSchoolsComplete(rows: seq<RawSchool>, i: nat)
    requires i < |rows|
    ensures HasCoordinates(rows[i]) <==> exists k :: 0 <= k < |LoadSchools(rows)| && LoadSchools(rows)[k].id == i
  {
    var r := LoadSchools(rows);
    if HasCoordinates(rows[i]) {
      LoadSchoolsFromComplete(rows, 0, i);
      assert r == LoadSchoolsFrom(rows, 0);
    } else {
      assert forall k :: 0 <= k < |r| ==> LoadedFrom(rows, r[k]);
    }
  }

  /** One row of the preprocessed collisions-by-school CSV, restricted to the
      columns the School Safety page reads. */
  datatype RawCollisionNearSchool = RawCollisionNearSchool(schoolName: string, year: Option<int>, dateText: string)

  datatype CollisionNearSchool = CollisionNearSchool(schoolName: string, year: Option<int>, date: Option<Date>)

  /** `load_collision_school_csv`: only the date is coerced; no row is dropped. */
  function LoadCollisionSchool(rows: seq<RawCollisionNearSchool>, parseDate: string -> Option<Date>)
    : (r: seq<CollisionNearSchool>)
    ensures |r| == |rows|
    ensures forall i :: 0 <= i < |r| ==>
              r[i].schoolName == rows[i].schoolName && r[i].year == rows[i].year
              && r[i].date == parseDate(rows[i].dateText)
  {
    seq(|rows|, i requires 0 <= i < |rows| =>
      CollisionNearSchool(rows[i].schoolName, rows[i].year, parseDate(rows[i].dateText)))
  }
}

=== FILE: neighborhood_view.dfy ===
/**
 The Neighborhood Collision View page (pages/2_Neighborhood_Collision_View.py):
 collisions of a year range counted per neighbourhood polygon, the
 neighbourhood-name column guessed from the column names, the
 yellow-orange-red choropleth gradient, the neighbourhood select box and the
 records of the selected neighbourhood.
 */
module NeighborhoodView {
  import opened Common
  import opened Text
  import opened LoadData
  import opened PolygonJoin
  import opened Ranking
  import CollisionMap

  // ---------------------------------------------------------------
  // Year range and counts
  // ---------------------------------------------------------------

  function InYears(lo: int, hi: int): Collision -> bool
  {
    (c: Collision) => InYearRange(Year(c), lo, hi)
  }

  /** `df[(Year >= lo) & (Year <= hi)]`: a row without a year is dropped. */
  function YearFilter(collisions: seq<Collision>, lo: int, hi: int): (r: seq<Collision>)
    ensures forall c :: c in r <==> c in collisions && InYearRange(Year(c), lo, hi)
    ensures (forall c :: c in collisions ==> InYearRange(Year(c), lo, hi)) ==> r == collisions
  {
    var r := Filter(InYears(lo, hi), collisions);
    assert (forall c :: c in collisions ==> InYearRange(Year(c), lo, hi)) ==> r == collisions by {
      if forall c :: c in collisions ==> InYearRange(Year(c), lo, hi) {
        FilterAll(InYears(lo, hi), collisions);
      }
    }
    r
  }

  lemma {:induction false} FilterAll<T(!new)>(p: T -> bool, s: seq<T>)
    requires forall x :: x in s ==> p(x)
    ensures Filter(p, s) == s
    decreases |s|
  {
    if |s| > 0 {
      FilterAll(p, s[1..]);
      assert s == [s[0]] + s[1..];
    }
  }

  function InsideDuring(within: (Point, Polygon) -> bool, polys: seq<Polygon>, i: nat, lo: int, hi: int): Collision -> bool
  {
    (c: Collision) => InYearRange(Year(c), lo, hi) && Inside(within, polys, i, c)
  }

  /** `collision_count` of every polygon: the collisions of the year range
      lying inside it, zero for a polygon that contains none. */
  function NeighbourhoodCounts(within: (Point, Polygon) -> bool, polys: seq<Polygon>,
                               collisions: seq<Collision>, lo: int, hi: int): (counts: seq<nat>)
    ensures |counts| == |polys|
    ensures forall i :: 0 <= i < |polys| ==>
              counts[i] == |Filter(InsideDuring(within, polys, i, lo, hi), collisions)|
  {
    var scope := YearFilter(collisions, lo, hi);
    CountsDuring(within, polys, collisions, lo, hi);
    PolygonCounts(SpatialJoin(within, polys, scope), |polys|)
  }

  lemma CountsDuring(within: (Point, Polygon) -> bool, polys: seq<Polygon>,
                     collisions: seq<Collision>, lo: int, hi: int)
    ensures forall i :: 0 <= i < |polys| ==>
              PolygonCounts(SpatialJoin(within, polys, YearFilter(collisions, lo, hi)), |polys|)[i]
              == |Filter(InsideDuring(within, polys, i, lo, hi), collisions)|
  {
    var scope := YearFilter(collisions, lo, hi);
    CountsAreContainment(within, polys, scope);
    forall i | 0 <= i < |polys|
      ensures Filter(InsidePolygon(within, polys, i), scope) == Filter(InsideDuring(within, polys, i, lo, hi), collisions)
    {
      FilterBoth(InYears(lo, hi), InsidePolygon(within, polys, i), InsideDuring(within, polys, i, lo, hi), collisions);
    }
  }

  /** Widening the year range never lowers a neighbourhood's count. */
  lemma WiderRangeNeverFewer(within: (Point, Polygon) -> bool, polys: seq<Polygon>,
                             collisions: seq<Collision>, lo: int, hi: int, lo': int, hi': int)
    requires lo' <= lo && hi <= hi'
    ensures forall i :: 0 <= i < |polys| ==>
              NeighbourhoodCounts(within, polys, collisions, lo, hi)[i]
              <= NeighbourhoodCounts(within, polys, collisions, lo', hi')[i]
  {
    forall i | 0 <= i < |polys|
      ensures |Filter(InsideDuring(within, polys, i, lo, hi), collisions)|
              <= |Filter(InsideDuring(within, polys, i, lo', hi'), collisions)|
    {
      FilterWeaker(InsideDuring(within, polys, i, lo, hi), InsideDuring(within, polys, i, lo', hi'), collisions);
    }
  }

  // ---------------------------------------------------------------
  // The neighbourhood-name column
  // ---------------------------------------------------------------

  /** A column of the polygon table; `isText` is `dtype == "object"`. */
  datatype Column = Column(name: string, isText: bool)

  /** A text column whose lower-cased name contains "name", "neigh" or "hood". */
  predicate NameLike(col: Column)
  {
    var lower := Lower(col.name);
    col.isText && (Contains(lower, "name") || Contains(lower, "neigh") || Contains(lower, "hood"))
  }

  function NameLikeTest(): Column -> bool
  {
    (col: Column) => NameLike(col)
  }

  function TextTest(): Column -> bool
  {
    (col: Column) => col.isText
  }

  /** The column whose values label the neighbourhoods: the first name-like
      text column; failing that the first text column; failing that
      `poly_id`. */
  function NameColumn(columns: seq<Column>): (name: string)
    ensures (exists i :: 0 <= i < |columns| && NameLike(columns[i])) ==>
              exists i :: 0 <= i < |columns| && NameLike(columns[i]) && name == columns[i].name
                          && forall j :: 0 <= j < i ==> !NameLike(columns[j])
    ensures (forall i :: 0 <= i < |columns| ==> !NameLike(columns[i]))
            && (exists i :: 0 <= i < |columns| && columns[i].isText) ==>
              exists i :: 0 <= i < |columns| && columns[i].isText && name == columns[i].name
                          && forall j :: 0 <= j < i ==> !columns[j].isText
    ensures (forall i :: 0 <= i < |columns| ==> !columns[i].isText) ==> name == "poly_id"
  {
    match FirstIndex(NameLikeTest(), columns)
    case Some(i) => columns[i].name
    case None =>
      match FirstIndex(TextTest(), columns)
      case Some(i) => columns[i].name
      case None => "poly_id"
  }

  /** A text column named exactly "name" is recognised whatever its case. */
  lemma NameColumnIgnoresCase(columns: seq<Column>, i: nat)
    requires i < |columns| && columns[i].isText && Lower(columns[i].name) == "name"
    requires forall j :: 0 <= j < i ==> !columns[j].isText
    ensures NameColumn(columns) == columns[i].name
  {
    ContainsSelf("name");
    assert NameLike(columns[i]);
  }

  lemma ContainsSelf(s: string)
    ensures Contains(s, s)
  {
    assert OccursAt(s, s, 0);
    ContainsIffOccurs(s, s);
  }

  // ---------------------------------------------------------------
  // Choropleth colour
  // ---------------------------------------------------------------

  const LowColour: Rgb := Rgb(255, 255, 178)
  const MidColour: Rgb := Rgb(254, 204, 92)
  const HighColour: Rgb := Rgb(227, 26, 28)

  /** `int(a + (b - a) * t)`: a point of the segment from `a` to `b`,
      truncated toward zero. */
  function Lerp(a: int, b: int, t: real): (v: int)
    requires 0.0 <= t <= 1.0
    ensures a <= b ==> a <= v <= b
    ensures b <= a ==> b <= v <= a
    ensures t == 0.0 ==> v == a
    ensures t == 1.0 ==> v == b
  {
    var x := a as real + (b - a) as real * t;
    Scaled((b - a) as real, t);
    if a <= b then
      TruncBetween(x, a, b);
      Trunc(x)
    else
      TruncBetween(x, b, a);
      Trunc(x)
  }

  lemma Scaled(d: real, t: real)
    requires 0.0 <= t <= 1.0
    ensures 0.0 <= d ==> 0.0 <= d * t <= d
    ensures d <= 0.0 ==> d <= d * t <= 0.0
    ensures d < 0.0 && 0.0 < t ==> d * t < 0.0
  {
    assert d - d * t == d * (1.0 - t);
  }

  /** Any step down a descending segment of non-negative values leaves the
      start: truncation cannot round back up to it. */
  lemma LerpLeavesStart(a: int, b: int, t: real)
    requires 0 <= b < a && 0.0 < t <= 1.0
    ensures Lerp(a, b, t) < a
  {
    Scaled((b - a) as real, t);
  }

  /** Truncating a real that lies between two integers stays between them. */
  lemma TruncBetween(x: real, lo: int, hi: int)
    requires lo as real <= x <= hi as real
    ensures lo <= Trunc(x) <= hi
  {
  }

  lemma TruncMonotone(x: real, y: real)
    requires x <= y
    ensures Trunc(x) <= Trunc(y)
  {
  }

  /** Going further along a descending segment never raises the value. */
  lemma LerpMonotone(a: int, b: int, t1: real, t2: real)
    requires b <= a && 0.0 <= t1 <= t2 <= 1.0
    ensures Lerp(a, b, t2) <= Lerp(a, b, t1)
  {
    var d := (b - a) as real;
    var e := d * (t2 - t1);
    Scaled(d, t2 - t1);
    assert e <= 0.0;
    assert a as real + d * t2 == a as real + d * t1 + e;
    TruncMonotone(a as real + d * t2, a as real + d * t1);
  }

  function Blend(c1: Rgb, c2: Rgb, t: real): Rgb
    requires 0.0 <= t <= 1.0
  {
    Rgb(Lerp(c1.r, c2.r, t), Lerp(c1.g, c2.g, t), Lerp(c1.b, c2.b, t))
  }

  predicate Between(c: Rgb, hi: Rgb, lo: Rgb)
  {
    lo.r <= c.r <= hi.r && lo.g <= c.g <= hi.g && lo.b <= c.b <= hi.b
  }

  /** `t = (n - min_cnt) / rng` with `rng = max(max_cnt - min_cnt, 1)`. */
  function Spread(n: int, lo: int, hi: int): (t: real)
    requires lo <= n <= hi
    ensures t == CollisionMap.Norm(n, lo, hi)
    ensures 0.0 <= t <= 1.0
  {
    var rng := if hi - lo >= 1 then hi - lo else 1;
    (n - lo) as real / rng as real
  }

  /** `collision_to_color`: below the middle of the spread the colour runs
      from yellow to orange, from the middle on from orange to red. */
  function Gradient(n: int, lo: int, hi: int): (c: Rgb)
    requires lo <= n <= hi
    ensures 0 <= c.r <= 255 && 0 <= c.g <= 255 && 0 <= c.b <= 255
    ensures Spread(n, lo, hi) < 0.5 ==> Between(c, LowColour, MidColour)
    ensures Spread(n, lo, hi) >= 0.5 ==> Between(c, MidColour, HighColour)
    ensures c == LowColour <==> n == lo
    ensures lo < hi && n == hi ==> c == HighColour
  {
    var t := Spread(n, lo, hi);
    if t < 0.5 then
      assert t > 0.0 ==> Lerp(LowColour.r, MidColour.r, t / 0.5) < LowColour.r by {
        if t > 0.0 {
          LerpLeavesStart(LowColour.r, MidColour.r, t / 0.5);
        }
      }
      Blend(LowColour, MidColour, t / 0.5)
    else
      Blend(MidColour, HighColour, (t - 0.5) / 0.5)
  }

  /** More collisions never give a lighter fill: every channel of the
      gradient falls (or stays) as the count rises. */
  lemma {:induction false} GradientMonotone(m: int, n: int, lo: int, hi: int)
    requires lo <= m <= n <= hi
    ensures Gradient(n, lo, hi).r <= Gradient(m, lo, hi).r
    ensures Gradient(n, lo, hi).g <= Gradient(m, lo, hi).g
    ensures Gradient(n, lo, hi).b <= Gradient(m, lo, hi).b
  {
    var tm, tn := Spread(m, lo, hi), Spread(n, lo, hi);
    CollisionMap.NormMonotone(m, n, lo, hi);
    if tn < 0.5 {
      CollisionMap.DivMonotone(tm, tn, 0.5);
      BlendMonotone(LowColour, MidColour, tm / 0.5, tn / 0.5);
    } else if 0.5 <= tm {
      CollisionMap.DivMonotone(tm - 0.5, tn - 0.5, 0.5);
      BlendMonotone(MidColour, HighColour, (tm - 0.5) / 0.5, (tn - 0.5) / 0.5);
    }
  }

  lemma BlendMonotone(c1: Rgb, c2: Rgb, t1: real, t2: real)
    requires c2.r <= c1.r && c2.g <= c1.g && c2.b <= c1.b
    requires 0.0 <= t1 <= t2 <= 1.0
    ensures Blend(c1, c2, t2).r <= Blend(c1, c2, t1).r
    ensures Blend(c1, c2, t2).g <= Blend(c1, c2, t1).g
    ensures Blend(c1, c2, t2).b <= Blend(c1, c2, t1).b
  {
    LerpMonotone(c1.r, c2.r, t1, t2);
    LerpMonotone(c1.g, c2.g, t1, t2);
    LerpMonotone(c1.b, c2.b, t1, t2);
  }

  /** The fill of every polygon, scaled between the smallest and the largest
      count of the table. */
  function ChoroplethFills(counts: seq<nat>): (fills: seq<Rgb>)
    requires |counts| > 0
    ensures |fills| == |counts|
    ensures forall i :: 0 <= i < |counts| ==>
              (fills[i] == LowColour <==> forall j :: 0 <= j < |counts| ==> counts[i] <= counts[j])
    ensures forall i :: 0 <= i < |counts| ==>
              (((forall j :: 0 <= j < |counts| ==> counts[j] <= counts[i])
                && (exists j :: 0 <= j < |counts| && counts[j] < counts[i]))
               ==> fills[i] == HighColour)
  {
    var lo := SeqMin(counts);
    var hi := SeqMax(counts);
    assert forall i :: 0 <= i < |counts| ==> lo <= counts[i] <= hi by {
      assert forall i :: 0 <= i < |counts| ==> counts[i] in counts;
    }
    var fills := seq(|counts|, i requires 0 <= i < |counts| => Gradient(counts[i], lo, hi));
    ExtremeFills(counts, fills, lo, hi);
    fills
  }

  lemma ExtremeFills(counts: seq<nat>, fills: seq<Rgb>, lo: int, hi: int)
    requires lo in counts && hi in counts
    requires forall i :: 0 <= i < |counts| ==> lo <= counts[i] <= hi
    requires |fills| == |counts|
    requires forall i :: 0 <= i < |counts| ==> fills[i] == Gradient(counts[i], lo, hi)
    ensures forall i :: 0 <= i < |counts| ==>
              (fills[i] == LowColour <==> forall j :: 0 <= j < |counts| ==> counts[i] <= counts[j])
    ensures forall i :: 0 <= i < |counts| ==>
              (((forall j :: 0 <= j < |counts| ==> counts[j] <= counts[i])
                && (exists j :: 0 <= j < |counts| && counts[j] < counts[i]))
               ==> fills[i] == HighColour)
  {
    var k :| 0 <= k < |counts| && counts[k] == lo;
    var m :| 0 <= m < |counts| && counts[m] == hi;
  }

  // ---------------------------------------------------------------
  // Neighbourhood selection
  // ---------------------------------------------------------------

  /** The select box's default: the first name of the ranking, i.e. a
      neighbourhood with the most collisions; none for an empty table. */
  function DefaultNeighbourhood(table: seq<Bar>): (d: Option<string>)
    ensures d.None? <==> |table| == 0
    ensures d.Some? ==> exists b :: b in table && b.name == d.value
                                    && forall x :: x in table ==> x.count <= b.count
  {
    var ranked := SortDesc(table);
    if |ranked| == 0 then None
    else
      SortedNames(table);
      SortedHeadMax(ranked);
      assert ranked[0] in ranked;
      Some(ranked[0].name)
  }

  lemma SortedHeadMax(s: seq<Bar>)
    requires SortedDesc(s) && |s| > 0
    ensures forall x :: x in s ==> x.count <= s[0].count
  {
    forall x | x in s
      ensures x.count <= s[0].count
    {
      var j :| 0 <= j < |s| && s[j] == x;
      if j > 0 {
        assert s[0].count >= s[j].count;
      }
    }
  }

  function LabelIs(labels: seq<string>, name: string): nat -> bool
  {
    (i: nat) => i < |labels| && labels[i] == name
  }

  function PolyIn(ids: seq<nat>): Joined -> bool
  {
    (row: Joined) => row.polyId.Some? && row.polyId.value in ids
  }

  /** The join rows of the selected neighbourhood: those whose polygon
      carries the selected label. No selection, or an empty one, selects
      nothing. */
  function SelectedRecords(joined: seq<Joined>, labels: seq<string>, selected: Option<string>): (r: seq<Joined>)
    ensures selected.None? || selected == Some("") ==> r == []
    ensures selected.Some? && selected.value != "" ==>
              forall row :: row in r <==> row in joined && row.polyId.Some?
                                          && row.polyId.value < |labels| && labels[row.polyId.value] == selected.value
    ensures |r| <= |joined|
  {
    if selected.None? || selected.value == "" then []
    else
      var ids := LabelledIds(labels, selected.value);
      if |ids| == 0 then []
      else Filter(PolyIn(ids), joined)
  }

  /** `gdf_selected["poly_id"]`: the positions of the polygons carrying
      `name` as their label. */
  function LabelledIds(labels: seq<string>, name: string): (ids: seq<nat>)
    ensures forall i: nat :: i in ids <==> i < |labels| && labels[i] == name
  {
    var ids := Filter<nat>(LabelIs(labels, name), Range(|labels|));
    assert forall i: nat :: i < |labels| ==> i in Range(|labels|) by {
      forall i: nat | i < |labels|
        ensures i in Range(|labels|)
      {
        assert Range(|labels|)[i] == i;
      }
    }
    ids
  }

  /** Joined with the spatial join of the year range, the selected records
      are exactly the collisions of that range lying inside a polygon with
      the selected label. */
  lemma SelectedAreInside(within: (Point, Polygon) -> bool, polys: seq<Polygon>, labels: seq<string>,
                          collisions: seq<Collision>, lo: int, hi: int, name: string, c: Collision)
    requires |labels| == |polys| && name != ""
    ensures (exists row :: row in SelectedRecords(SpatialJoin(within, polys, YearFilter(collisions, lo, hi)), labels, Some(name))
                           && row.collision == c)
            <==> c in collisions && InYearRange(Year(c), lo, hi)
                 && exists i :: 0 <= i < |polys| && labels[i] == name && Inside(within, polys, i, c)
  {
    var r := SelectedRecords(SpatialJoin(within, polys, YearFilter(collisions, lo, hi)), labels, Some(name));
    SelectedSound(within, polys, labels, collisions, lo, hi, name, r, c);
    SelectedComplete(within, polys, labels, collisions, lo, hi, name, r, c);
  }

  lemma SelectedSound(within: (Point, Polygon) -> bool, polys: seq<Polygon>, labels: seq<string>,
                      collisions: seq<Collision>, lo: int, hi: int, name: string, r: seq<Joined>, c: Collision)
    requires |labels| == |polys| && name != ""
    requires r == SelectedRecords(SpatialJoin(within, polys, YearFilter(collisions, lo, hi)), labels, Some(name))
    ensures (exists row :: row in r && row.collision == c) ==>
              c in collisions && InYearRange(Year(c), lo, hi)
              && exists i :: 0 <= i < |polys| && labels[i] == name && Inside(within, polys, i, c)
  {
    var scope := YearFilter(collisions, lo, hi);
    var rows := SpatialJoin(within, polys, scope);
    if row :| row in r && row.collision == c {
      assert row in rows && row.polyId.Some? && labels[row.polyId.value] == name;
      var i := row.polyId.value;
      assert c in scope && Inside(within, polys, i, c);
    }
  }

  lemma SelectedComplete(within: (Point, Polygon) -> bool, polys: seq<Polygon>, labels: seq<string>,
                         collisions: seq<Collision>, lo: int, hi: int, name: string, r: seq<Joined>, c: Collision)
    requires |labels| == |polys| && name != ""
    requires r == SelectedRecords(SpatialJoin(within, polys, YearFilter(collisions, lo, hi)), labels, Some(name))
    ensures c in collisions && InYearRange(Year(c), lo, hi)
            && (exists i :: 0 <= i < |polys| && labels[i] == name && Inside(within, polys, i, c)) ==>
              exists row :: row in r && row.collision == c
  {
    var scope := YearFilter(collisions, lo, hi);
    var rows := SpatialJoin(within, polys, scope);
    if c in scope && exists i :: 0 <= i < |polys| && labels[i] == name && Inside(within, polys, i, c) {
      var i :| 0 <= i < |polys| && labels[i] == name && Inside(within, polys, i, c);
      SpatialJoinComplete(within, polys, scope, c);
      KeptSelected(rows, labels, name, Joined(c, Some(i)));
    }
  }

  lemma KeptSelected(rows: seq<Joined>, labels: seq<string>, name: string, row: Joined)
    requires name != "" && row in rows
    requires row.polyId.Some? && row.polyId.value < |labels| && labels[row.polyId.value] == name
    ensures row in SelectedRecords(rows, labels, Some(name))
  {
  }
}

=== FILE: polygon_join.dfy ===
/**
 The left spatial join of collision points with neighbourhood polygons
 (`gpd.sjoin(..., how="left", predicate="within")`) and the per-polygon
 collision counts both map pages derive from it (`groupby("poly_id").size()`,
 merged back onto every polygon with `fillna(0)`).
 */
module PolygonJoin {
  import opened Common
  import opened LoadData

  /** A neighbourhood council boundary: its outer ring. The point-in-polygon
      test itself is a parameter `within` of the operations below. */
  datatype Polygon = Polygon(ring: seq<Point>)

  /** One output row of the left join; `polyId` is the polygon's position
      after `reset_index`, or `None` (NaN) when no polygon contains the point. */
  datatype Joined = Joined(collision: Collision, polyId: Option<nat>)

  /** A point without coordinates lies in no polygon. */
  predicate Inside(within: (Point, Polygon) -> bool, polys: seq<Polygon>, i: nat, c: Collision)
  {
    i < |polys| && c.coord.Some? && within(c.coord.value, polys[i])
  }

  function InsideTest(within: (Point, Polygon) -> bool, polys: seq<Polygon>, c: Collision): nat -> bool
  {
    (i: nat) => Inside(within, polys, i, c)
  }

  /** The ids of the polygons containing `c`, in polygon order. */
  function Containing(within: (Point, Polygon) -> bool, polys: seq<Polygon>, c: Collision): (ids: seq<nat>)
    ensures forall i :: i in ids <==> Inside(within, polys, i, c)
    ensures forall i :: multiset(ids)[i] == if Inside(within, polys, i, c) then 1 else 0
  {
    var ids := Filter<nat>(InsideTest(within, polys, c), Range(|polys|));
    assert forall i :: multiset(ids)[i] == if Inside(within, polys, i, c) then 1 else 0 by {
      forall i: nat
        ensures multiset(ids)[i] == if Inside(within, polys, i, c) then 1 else 0
      {
        RangeCount(|polys|, i);
      }
    }
    ids
  }

  function TagIds(c: Collision, ids: seq<nat>): (rows: seq<Joined>)
    ensures |rows| == |ids|
    ensures forall row :: row in rows ==> row.collision == c && row.polyId.Some? && row.polyId.value in ids
    decreases |ids|
  {
    if |ids| == 0 then [] else [Joined(c, Some(ids[0]))] + TagIds(c, ids[1..])
  }

  /** The join rows of one point: one per containing polygon, or a single
      row with a missing id when there is none. */
  function JoinPoint(within: (Point, Polygon) -> bool, polys: seq<Polygon>, c: Collision): (rows: seq<Joined>)
    ensures |rows| >= 1
    ensures forall row :: row in rows ==> row.collision == c
    ensures forall row :: row in rows && row.polyId.Some? ==> Inside(within, polys, row.polyId.value, c)
  {
    var ids := Containing(within, polys, c);
    if |ids| == 0 then [Joined(c, None)] else TagIds(c, ids)
  }

  /** The left join, point by point in table order. */
  function SpatialJoin(within: (Point, Polygon) -> bool, polys: seq<Polygon>, points: seq<Collision>): (rows: seq<Joined>)
    ensures |rows| >= |points|
    ensures forall row :: row in rows ==> row.collision in points
    ensures forall row :: row in rows && row.polyId.Some? ==> Inside(within, polys, row.polyId.value, row.collision)
    decreases |points|
  {
    if |points| == 0 then []
    else
      var rest := SpatialJoin(within, polys, points[1..]);
      assert forall row :: row in rest ==> row.collision in points;
      JoinPoint(within, polys, points[0]) + rest
  }

  lemma {:induction false} TagIdsMember(c: Collision, ids: seq<nat>, i: nat)
    requires i in ids
    ensures Joined(c, Some(i)) in TagIds(c, ids)
    decreases |ids|
  {
    if ids[0] != i {
      TagIdsMember(c, ids[1..], i);
    }
  }

  /** No point is lost and no containing polygon is missed: every polygon
      containing a point gets a row, and a point no polygon contains keeps
      one row with a missing id. */
  lemma {:induction false} SpatialJoinComplete(within: (Point, Polygon) -> bool, polys: seq<Polygon>,
                                               points: seq<Collision>, c: Collision)
    requires c in points
    ensures forall i :: Inside(within, polys, i, c) ==> Joined(c, Some(i)) in SpatialJoin(within, polys, points)
    ensures (forall i :: !Inside(within, polys, i, c)) ==> Joined(c, None) in SpatialJoin(within, polys, points)
    decreases |points|
  {
    var rows := SpatialJoin(within, polys, points);
    assert rows == JoinPoint(within, polys, points[0]) + SpatialJoin(within, polys, points[1..]);
    if points[0] == c {
      var ids := Containing(within, polys, c);
      forall i | Inside(within, polys, i, c)
        ensures Joined(c, Some(i)) in rows
      {
        TagIdsMember(c, ids, i);
      }
    } else {
      SpatialJoinComplete(within, polys, points[1..], c);
    }
  }

  function HasPoly(i: nat): Joined -> bool
  {
    (row: Joined) => row.polyId == Some(i)
  }

  lemma {:induction false} TagIdsCount(c: Collision, ids: seq<nat>, i: nat)
    ensures |Filter(HasPoly(i), TagIds(c, ids))| == multiset(ids)[i]
    decreases |ids|
  {
    if |ids| > 0 {
      var rows := TagIds(c, ids);
      TagIdsCount(c, ids[1..], i);
      FilterHeadLength(HasPoly(i), rows);
      assert rows[1..] == TagIds(c, ids[1..]);
      MultisetHead(ids, i);
    }
  }

  lemma JoinPointCount(within: (Point, Polygon) -> bool, polys: seq<Polygon>, c: Collision, i: nat)
    ensures |Filter(HasPoly(i), JoinPoint(within, polys, c))| == if Inside(within, polys, i, c) then 1 else 0
  {
    var ids := Containing(within, polys, c);
    if |ids| > 0 {
      TagIdsCount(c, ids, i);
    }
  }

  /** `groupby("poly_id").size()` merged onto every polygon and zero-filled:
      the number of join rows carrying each polygon id; rows without an id
      are not counted. */
  function PolygonCounts(rows: seq<Joined>, n: nat): (counts: seq<nat>)
    ensures |counts| == n
    ensures forall i :: 0 <= i < n ==> counts[i] <= |rows|
  {
    seq(n, i requires 0 <= i < n => |Filter(HasPoly(i), rows)|)
  }

  function InsidePolygon(within: (Point, Polygon) -> bool, polys: seq<Polygon>, i: nat): Collision -> bool
  {
    (c: Collision) => Inside(within, polys, i, c)
  }

  lemma {:induction false} JoinCount(within: (Point, Polygon) -> bool, polys: seq<Polygon>, points: seq<Collision>, i: nat)
    ensures |Filter(HasPoly(i), SpatialJoin(within, polys, points))| == |Filter(InsidePolygon(within, polys, i), points)|
    decreases |points|
  {
    if |points| > 0 {
      var head := JoinPoint(within, polys, points[0]);
      var rest := SpatialJoin(within, polys, points[1..]);
      JoinCount(within, polys, points[1..], i);
      assert SpatialJoin(within, polys, points) == head + rest;
      FilterConcat(HasPoly(i), head, rest);
      JoinPointCount(within, polys, points[0], i);
      FilterHeadLength(InsidePolygon(within, polys, i), points);
    }
  }

  /** Each polygon's count is the number of collisions lying inside it. A
      collision inside two overlapping polygons counts in both; one outside
      every polygon counts in none. */
  lemma CountsAreContainment(within: (Point, Polygon) -> bool, polys: seq<Polygon>, points: seq<Collision>)
    ensures forall i :: 0 <= i < |polys| ==>
              PolygonCounts(SpatialJoin(within, polys, points), |polys|)[i]
              == |Filter(InsidePolygon(within, polys, i), points)|
  {
    forall i | 0 <= i < |polys|
      ensures PolygonCounts(SpatialJoin(within, polys, points), |polys|)[i]
              == |Filter(InsidePolygon(within, polys, i), points)|
    {
      JoinCount(within, polys, points, i);
    }
  }

  /** Counting the points of a concatenated table adds the counts. */
  lemma CountsConcat(within: (Point, Polygon) -> bool, polys: seq<Polygon>, a: seq<Collision>, b: seq<Collision>)
    ensures forall i :: 0 <= i < |polys| ==>
              PolygonCounts(SpatialJoin(within, polys, a + b), |polys|)[i]
              == PolygonCounts(SpatialJoin(within, polys, a), |polys|)[i]
                 + PolygonCounts(SpatialJoin(within, polys, b), |polys|)[i]
  {
    CountsAreContainment(within, polys, a + b);
    CountsAreContainment(within, polys, a);
    CountsAreContainment(within, polys, b);
    forall i | 0 <= i < |polys|
      ensures |Filter(InsidePolygon(within, polys, i), a + b)|
              == |Filter(InsidePolygon(within, polys, i), a)| + |Filter(InsidePolygon(within, polys, i), b)|
    {
      FilterConcat(InsidePolygon(within, polys, i), a, b);
    }
  }
}

=== FILE: proximity_join.dfy ===
/**
 The school proximity join of data/preprocess_school_data.py: for each school,
 in table order, the collisions inside a fixed degree radius (a bounding-box
 pass, then a Euclidean distance test in degree space), each tagged with the
 school; then the school categories are merged back in by name.
 */
module ProximityJoin {
  import opened Common
  import opened LoadData

  const SearchRadiusMiles: real := 0.2
  const MetresPerMile: real := 1609.34
  const MetresPerDegree: real := 111000.0

  /** The radius in degrees: a flat conversion, the same at every latitude. */
  const SearchRadiusDegrees: real := SearchRadiusMiles * MetresPerMile / MetresPerDegree

  /** The squared Euclidean distance in degree space. */
  function SqDistance(p: Point, q: Point): real
  {
    (p.lat - q.lat) * (p.lat - q.lat) + (p.lon - q.lon) * (p.lon - q.lon)
  }

  /** `np.sqrt(d2) <= r` without the root: a square root is never negative,
      so it is at most `r` exactly when `r >= 0` and `d2 <= r * r`. */
  predicate WithinRadius(p: Point, centre: Point, r: real)
  {
    0.0 <= r && SqDistance(p, centre) <= r * r
  }

  /** Both inclusive `Series.between` masks of the bounding box. */
  predicate InBox(p: Point, centre: Point, r: real)
  {
    centre.lat - r <= p.lat <= centre.lat + r && centre.lon - r <= p.lon <= centre.lon + r
  }

  function Location(s: School): Point
  {
    Point(s.lat, s.lon)
  }

  /** A collision without coordinates (NaN) fails every comparison. */
  predicate NearSchool(c: Collision, s: School, r: real)
  {
    c.coord.Some? && WithinRadius(c.coord.value, Location(s), r)
  }

  predicate InSchoolBox(c: Collision, s: School, r: real)
  {
    c.coord.Some? && InBox(c.coord.value, Location(s), r)
  }

  function NearTest(s: School, r: real): Collision -> bool
  {
    c => NearSchool(c, s, r)
  }

  function BoxTest(s: School, r: real): Collision -> bool
  {
    c => InSchoolBox(c, s, r)
  }

  lemma SquareBound(x: real, y: real, r: real)
    requires 0.0 <= r && x * x + y * y <= r * r
    ensures -r <= x <= r
  {
    assert 0.0 <= y * y;
    if r < x {
      StrictSquare(r, x);
    } else if x < -r {
      StrictSquare(r, -x);
    }
  }

  lemma StrictSquare(a: real, b: real)
    requires 0.0 <= a < b
    ensures a * a < b * b
  {
    var d, e := b - a, b + a;
    assert 0.0 < d && 0.0 < e;
    assert 0.0 < d * e;
    assert d * e == b * b - a * a;
  }

  /** The bounding box never removes a true match: the disc of radius `r`
      lies inside the square [centre - r, centre + r]^2. */
  lemma BoxContainsDisc(p: Point, centre: Point, r: real)
    requires WithinRadius(p, centre, r)
    ensures InBox(p, centre, r)
  {
    var dlat, dlon := p.lat - centre.lat, p.lon - centre.lon;
    SquareBound(dlat, dlon, r);
    SquareBound(dlon, dlat, r);
  }

  /** The collisions kept for one school: the bounding-box pass then the
      distance test. Because the box is sound this is the distance test alone. */
  function Nearby(collisions: seq<Collision>, s: School, r: real): (near: seq<Collision>)
    ensures near == Filter(NearTest(s, r), collisions)
    ensures forall c :: c in near <==> c in collisions && NearSchool(c, s, r)
  {
    NearImpliesInBox(s, r);
    FilterAbsorb(BoxTest(s, r), NearTest(s, r), collisions);
    Filter(NearTest(s, r), Filter(BoxTest(s, r), collisions))
  }

  lemma NearImpliesInBox(s: School, r: real)
    ensures forall c :: NearTest(s, r)(c) ==> BoxTest(s, r)(c)
  {
    forall c | NearTest(s, r)(c)
      ensures BoxTest(s, r)(c)
    {
      BoxContainsDisc(c.coord.value, Location(s), r);
    }
  }

  /** Growing the radius only adds matches: the matches for `r1` are exactly
      the matches for `r2 >= r1` that also pass the `r1` test, in order. */
  lemma NearbyMonotone(collisions: seq<Collision>, s: School, r1: real, r2: real)
    requires r1 <= r2
    ensures Nearby(collisions, s, r1) == Filter(NearTest(s, r1), Nearby(collisions, s, r2))
    ensures forall c :: c in Nearby(collisions, s, r1) ==> c in Nearby(collisions, s, r2)
  {
    forall c | NearTest(s, r1)(c)
      ensures NearTest(s, r2)(c)
    {
      assert r1 * r1 <= r2 * r2 by {
        assert r1 * r1 <= r1 * r2 <= r2 * r2;
      }
    }
    FilterAbsorb(NearTest(s, r2), NearTest(s, r1), collisions);
  }

  /** A collision recorded at the school's own coordinates is always kept. */
  lemma ExactLocationMatched(collisions: seq<Collision>, s: School, r: real, c: Collision)
    requires c in collisions && c.coord == Some(Location(s)) && 0.0 <= r
    ensures c in Nearby(collisions, s, r)
  {
    assert SqDistance(c.coord.value, Location(s)) == 0.0;
    assert 0.0 <= r * r;
    assert NearSchool(c, s, r);
  }

  /** The fixed radius is 0.2 miles, about 0.0029 degrees. */
  lemma SearchRadiusValue()
    ensures 0.00289 < SearchRadiusDegrees < 0.0029
  {
  }

  lemma RadiusIncludesNear()
    ensures WithinRadius(Point(34.0015, -118.0), Point(34.0, -118.0), SearchRadiusDegrees)
  {
    SearchRadiusValue();
    var r := SearchRadiusDegrees;
    assert 0.0028 * 0.0028 <= r * r by {
      StrictSquare(0.0028, r);
    }
  }

  lemma RadiusExcludesFar()
    ensures !WithinRadius(Point(34.01, -118.0), Point(34.0, -118.0), SearchRadiusDegrees)
  {
    SearchRadiusValue();
    var r := SearchRadiusDegrees;
    assert r * r < 0.0029 * 0.0029 by {
      StrictSquare(r, 0.0029);
    }
  }

  /** Around (34.0, -118.0), a collision 0.0015 degrees north is inside the
      0.2-mile radius and one 0.01 degrees north is not. */
  lemma RadiusScenario(collisions: seq<Collision>, s: School, near: Collision, far: Collision)
    requires s.lat == 34.0 && s.lon == -118.0
    requires near.coord == Some(Point(34.0015, -118.0)) && far.coord == Some(Point(34.01, -118.0))
    requires near in collisions && far in collisions
    ensures near in Nearby(collisions, s, SearchRadiusDegrees)
    ensures far !in Nearby(collisions, s, SearchRadiusDegrees)
  {
    RadiusIncludesNear();
    RadiusExcludesFar();
    assert Location(s) == Point(34.0, -118.0);
  }

  /** A collision row tagged with the school it was matched to. */
  datatype JoinRow = JoinRow(collision: Collision, schoolName: string, schoolId: nat, schoolLat: real, schoolLon: real)

  function Tag(s: School, c: Collision): JoinRow
  {
    JoinRow(c, s.name, s.id, s.lat, s.lon)
  }

  function TagAll(s: School, cs: seq<Collision>): (rows: seq<JoinRow>)
    ensures |rows| == |cs|
    ensures forall i :: 0 <= i < |cs| ==> rows[i] == Tag(s, cs[i])
    decreases |cs|
  {
    if |cs| == 0 then [] else [Tag(s, cs[0])] + TagAll(s, cs[1..])
  }

  lemma TagAllMembers(s: School, cs: seq<Collision>)
    ensures forall row :: row in TagAll(s, cs) <==> row.collision in cs && row == Tag(s, row.collision)
  {
    var rows := TagAll(s, cs);
    forall row: JoinRow | row.collision in cs && row == Tag(s, row.collision)
      ensures row in rows
    {
      var i :| 0 <= i < |cs| && cs[i] == row.collision;
      assert rows[i] == row;
    }
  }

  /** The loop over schools: each school's tagged matches, concatenated in
      school order; a school without matches contributes nothing. */
  function JoinSchools(schools: seq<School>, collisions: seq<Collision>, r: real): seq<JoinRow>
    decreases |schools|
  {
    if |schools| == 0 then []
    else TagAll(schools[0], Nearby(collisions, schools[0], r)) + JoinSchools(schools[1..], collisions, r)
  }

  /** Every joined row is a collision near the school it is tagged with, and
      every near school/collision pair is joined. */
  lemma {:induction false} JoinSchoolsSpec(schools: seq<School>, collisions: seq<Collision>, r: real)
    ensures forall row :: row in JoinSchools(schools, collisions, r) ==>
              row.collision in collisions
              && exists s :: s in schools && row == Tag(s, row.collision) && NearSchool(row.collision, s, r)
    ensures forall s, c :: s in schools && c in collisions && NearSchool(c, s, r) ==>
              Tag(s, c) in JoinSchools(schools, collisions, r)
    decreases |schools|
  {
    if |schools| > 0 {
      JoinSchoolsSpec(schools[1..], collisions, r);
      JoinStep(schools, collisions, r, TagAll(schools[0], Nearby(collisions, schools[0], r)),
               JoinSchools(schools[1..], collisions, r));
    }
  }

  lemma JoinStep(schools: seq<School>, collisions: seq<Collision>, r: real, here: seq<JoinRow>, rest: seq<JoinRow>)
    requires |schools| > 0 && here == TagAll(schools[0], Nearby(collisions, schools[0], r))
    requires forall row :: row in rest ==>
               row.collision in collisions
               && exists s :: s in schools[1..] && row == Tag(s, row.collision) && NearSchool(row.collision, s, r)
    requires forall s, c :: s in schools[1..] && c in collisions && NearSchool(c, s, r) ==> Tag(s, c) in rest
    ensures forall row :: row in here + rest ==>
              row.collision in collisions
              && exists s :: s in schools && row == Tag(s, row.collision) && NearSchool(row.collision, s, r)
    ensures forall s, c :: s in schools && c in collisions && NearSchool(c, s, r) ==> Tag(s, c) in here + rest
  {
    TagAllMembers(schools[0], Nearby(collisions, schools[0], r));
    assert forall s :: s in schools <==> s == schools[0] || s in schools[1..] by {
      assert schools == [schools[0]] + schools[1..];
    }
    JoinStepSound(schools, collisions, r, here, rest);
    forall s, c | s in schools && c in collisions && NearSchool(c, s, r)
      ensures Tag(s, c) in here + rest
    {
      if s == schools[0] {
        assert Tag(s, c) in here;
      } else {
        assert Tag(s, c) in rest;
      }
    }
  }

  /** The rows of one step come from the step's schools. */
  lemma JoinStepSound(schools: seq<School>, collisions: seq<Collision>, r: real, here: seq<JoinRow>, rest: seq<JoinRow>)
    requires |schools| > 0
    requires forall row :: row in here <==> (row.collision in Nearby(collisions, schools[0], r)
                                            && row == Tag(schools[0], row.collision))
    requires forall row :: row in rest ==>
               row.collision in collisions
               && exists s :: s in schools[1..] && row == Tag(s, row.collision) && NearSchool(row.collision, s, r)
    ensures forall row :: row in here + rest ==>
              row.collision in collisions
              && exists s :: s in schools && row == Tag(s, row.collision) && NearSchool(row.collision, s, r)
  {
    forall row | row in here + rest
      ensures row.collision in collisions
      ensures exists s :: s in schools && row == Tag(s, row.collision) && NearSchool(row.collision, s, r)
    {
      if row in here {
        assert schools[0] in schools;
      } else {
        var s :| s in schools[1..] && row == Tag(s, row.collision) && NearSchool(row.collision, s, r);
        assert s in schools;
      }
    }
  }

  /** The output for a list of schools is the output for its first part
      followed by the output for the rest. */
  lemma {:induction false} JoinSchoolsConcat(a: seq<School>, b: seq<School>, collisions: seq<Collision>, r: real)
    ensures JoinSchools(a + b, collisions, r) == JoinSchools(a, collisions, r) + JoinSchools(b, collisions, r)
    decreases |a|
  {
    if |a| == 0 {
      assert a + b == b;
    } else {
      JoinSchoolsConcat(a[1..], b, collisions, r);
      JoinSchoolsConcatStep(a, b, collisions, r);
    }
  }

  lemma JoinSchoolsConcatStep(a: seq<School>, b: seq<School>, collisions: seq<Collision>, r: real)
    requires |a| > 0
    requires JoinSchools(a[1..] + b, collisions, r) == JoinSchools(a[1..], collisions, r) + JoinSchools(b, collisions, r)
    ensures JoinSchools(a + b, collisions, r) == JoinSchools(a, collisions, r) + JoinSchools(b, collisions, r)
  {
    JoinSchoolsFirst(a, b, collisions, r);
    ConcatAssoc(TagAll(a[0], Nearby(collisions, a[0], r)), JoinSchools(a[1..], collisions, r), JoinSchools(b, collisions, r));
  }

  /** One unfolding of `JoinSchools` on `a` and on `a + b`. */
  lemma JoinSchoolsFirst(a: seq<School>, b: seq<School>, collisions: seq<Collision>, r: real)
    requires |a| > 0
    ensures JoinSchools(a, collisions, r)
            == TagAll(a[0], Nearby(collisions, a[0], r)) + JoinSchools(a[1..], collisions, r)
    ensures JoinSchools(a + b, collisions, r)
            == TagAll(a[0], Nearby(collisions, a[0], r)) + JoinSchools(a[1..] + b, collisions, r)
  {
    ConcatTail(a, b);
  }

  /** A row's collision is within `r` of the coordinates it was tagged with. */
  predicate RowWithin(row: JoinRow, r: real)
  {
    row.collision.coord.Some? && WithinRadius(row.collision.coord.value, Point(row.schoolLat, row.schoolLon), r)
  }

  function RowTest(r: real): JoinRow -> bool
  {
    (row: JoinRow) => RowWithin(row, r)
  }

  lemma {:induction false} FilterTagAll(s: School, cs: seq<Collision>, r: real)
    ensures Filter(RowTest(r), TagAll(s, cs)) == TagAll(s, Filter(NearTest(s, r), cs))
    decreases |cs|
  {
    if |cs| > 0 {
      var rows := TagAll(s, cs);
      FilterTagAll(s, cs[1..], r);
      assert RowTest(r)(rows[0]) == NearTest(s, r)(cs[0]);
      var tail := Filter(NearTest(s, r), cs[1..]);
      if NearTest(s, r)(cs[0]) {
        assert Filter(RowTest(r), rows) == [rows[0]] + Filter(RowTest(r), rows[1..]);
        assert Filter(NearTest(s, r), cs) == [cs[0]] + tail;
        assert ([cs[0]] + tail)[1..] == tail;
      } else {
        assert Filter(RowTest(r), rows) == Filter(RowTest(r), rows[1..]);
        assert Filter(NearTest(s, r), cs) == tail;
      }
    }
  }

  /** The whole join is monotone in the radius, row for row and in order:
      the join for `r1` is the join for `r2 >= r1` restricted to rows within `r1`. */
  lemma {:induction false} JoinSchoolsMonotone(schools: seq<School>, collisions: seq<Collision>, r1: real, r2: real)
    requires r1 <= r2
    ensures JoinSchools(schools, collisions, r1) == Filter(RowTest(r1), JoinSchools(schools, collisions, r2))
    decreases |schools|
  {
    if |schools| > 0 {
      var s := schools[0];
      JoinSchoolsMonotone(schools[1..], collisions, r1, r2);
      FilterConcat(RowTest(r1), TagAll(s, Nearby(collisions, s, r2)), JoinSchools(schools[1..], collisions, r2));
      FilterTagAll(s, Nearby(collisions, s, r2), r1);
      NearbyMonotone(collisions, s, r1, r2);
    }
  }

  function RowOf(c: Collision): JoinRow -> bool
  {
    (row: JoinRow) => row.collision == c
  }

  function SchoolNearTest(c: Collision, r: real): School -> bool
  {
    (s: School) => NearSchool(c, s, r)
  }

  lemma TagAllHeadCount(s: School, cs: seq<Collision>, c: Collision)
    requires |cs| > 0
    ensures |Filter(RowOf(c), TagAll(s, cs))|
            == (if cs[0] == c then 1 else 0) + |Filter(RowOf(c), TagAll(s, cs[1..]))|
  {
    var rows := TagAll(s, cs);
    assert rows[1..] == TagAll(s, cs[1..]);
    assert RowOf(c)(rows[0]) == (cs[0] == c);
  }

  /** Tagging keeps multiplicities: a collision occurring m times among the
      matches gives m rows. */
  lemma {:induction false} TagAllCount(s: School, cs: seq<Collision>, c: Collision)
    ensures |Filter(RowOf(c), TagAll(s, cs))| == multiset(cs)[c]
    decreases |cs|
  {
    if |cs| > 0 {
      TagAllCount(s, cs[1..], c);
      TagAllHeadCount(s, cs, c);
      MultisetHead(cs, c);
    }
  }

  /** A collision within `r` of k schools appears k times per copy in the
      collision table; one within `r` of no school does not appear. */
  lemma {:induction false} JoinSchoolsMultiplicity(schools: seq<School>, collisions: seq<Collision>, r: real, c: Collision)
    ensures |Filter(RowOf(c), JoinSchools(schools, collisions, r))|
            == |Filter(SchoolNearTest(c, r), schools)| * multiset(collisions)[c]
    decreases |schools|
  {
    if |schools| > 0 {
      var s := schools[0];
      var near := Nearby(collisions, s, r);
      var rest := JoinSchools(schools[1..], collisions, r);
      JoinSchoolsMultiplicity(schools[1..], collisions, r, c);
      assert JoinSchools(schools, collisions, r) == TagAll(s, near) + rest;
      FilterConcat(RowOf(c), TagAll(s, near), rest);
      TagAllCount(s, near, c);
      FilterHeadLength(SchoolNearTest(c, r), schools);
      CountStep(NearSchool(c, s, r), |Filter(RowOf(c), JoinSchools(schools, collisions, r))|,
                multiset(near)[c], |Filter(RowOf(c), rest)|,
                |Filter(SchoolNearTest(c, r), schools)|, |Filter(SchoolNearTest(c, r), schools[1..])|,
                multiset(collisions)[c]);
    }
  }

  /** The arithmetic of one school's step: a near school adds one more copy
      of each occurrence, a far one adds nothing. */
  lemma CountStep(isNear: bool, rows: int, here: int, rest: int, total: int, k: int, m: int)
    requires rows == here + rest && rest == k * m
    requires here == (if isNear then m else 0) && total == (if isNear then 1 + k else k)
    ensures rows == total * m
  {
    if isNear {
      assert (1 + k) * m == m + k * m;
    }
  }

  /** A joined row after the left merge with the school categories. */
  datatype SchoolCollisionRow = SchoolCollisionRow(join: JoinRow, category2: Option<string>, category3: Option<string>)

  function SameName(name: string): School -> bool
  {
    (s: School) => s.name == name
  }

  /** The left merge of one row on `school_name`: one output row per school
      bearing that name, or one row without categories when none does. */
  function MergeRow(row: JoinRow, schools: seq<School>): (out: seq<SchoolCollisionRow>)
    ensures |out| >= 1
    ensures forall o :: o in out ==> o.join == row
  {
    var matches := Filter(SameName(row.schoolName), schools);
    if |matches| == 0 then [SchoolCollisionRow(row, None, None)]
    else seq(|matches|, i requires 0 <= i < |matches| =>
           SchoolCollisionRow(row, matches[i].category2, matches[i].category3))
  }

  /** `collision_school_df.merge(schools_subset, on="school_name", how="left")`. */
  function MergeCategories(rows: seq<JoinRow>, schools: seq<School>): (out: seq<SchoolCollisionRow>)
    ensures |out| >= |rows|
    ensures forall o :: o in out ==> o.join in rows
    decreases |rows|
  {
    if |rows| == 0 then []
    else
      var rest := MergeCategories(rows[1..], schools);
      assert forall o :: o in rest ==> o.join in rows;
      MergeRow(rows[0], schools) + rest
  }

  /** The left merge loses no joined row. */
  lemma {:induction false} MergeKeepsRows(rows: seq<JoinRow>, schools: seq<School>, row: JoinRow)
    requires row in rows
    ensures exists o :: o in MergeCategories(rows, schools) && o.join == row
    decreases |rows|
  {
    var here := MergeRow(rows[0], schools);
    var rest := MergeCategories(rows[1..], schools);
    assert MergeCategories(rows, schools) == here + rest;
    if row == rows[0] {
      assert here[0] in here;
      assert here[0] in here + rest;
    } else {
      MergeKeepsRows(rows[1..], schools, row);
      var o :| o in rest && o.join == row;
      assert o in here + rest;
    }
  }

  predicate UniqueNames(schools: seq<School>)
  {
    forall i, j :: 0 <= i < j < |schools| ==> schools[i].name != schools[j].name
  }

  lemma {:induction false} UniqueNameMatch(schools: seq<School>, s: School)
    requires UniqueNames(schools) && s in schools
    ensures Filter(SameName(s.name), schools) == [s]
    decreases |schools|
  {
    if schools[0] == s {
      assert forall t :: t in schools[1..] ==> t.name != s.name;
      assert Filter(SameName(s.name), schools[1..]) == [];
    } else {
      assert s in schools[1..];
      assert UniqueNames(schools[1..]);
      UniqueNameMatch(schools[1..], s);
      assert schools[0].name != s.name;
    }
  }

  lemma MergeRowUnique(row: JoinRow, schools: seq<School>, s: School)
    requires UniqueNames(schools) && s in schools && s.name == row.schoolName
    ensures MergeRow(row, schools) == [SchoolCollisionRow(row, s.category2, s.category3)]
  {
    UniqueNameMatch(schools, s);
  }

  /** When school names are unique and every row names a school of the table,
      the merge adds that school's categories without adding or losing rows. */
  lemma {:induction false} MergeCategoriesUnique(rows: seq<JoinRow>, schools: seq<School>)
    requires UniqueNames(schools)
    requires forall row :: row in rows ==> exists s :: s in schools && s.name == row.schoolName
    ensures |MergeCategories(rows, schools)| == |rows|
    ensures forall i, s :: 0 <= i < |rows| && s in schools && s.name == rows[i].schoolName ==>
              MergeCategories(rows, schools)[i] == SchoolCollisionRow(rows[i], s.category2, s.category3)
    decreases |rows|
  {
    if |rows| > 0 {
      assert rows[0] in rows;
      var s :| s in schools && s.name == rows[0].schoolName;
      var head := MergeRow(rows[0], schools);
      MergeRowUnique(rows[0], schools, s);
      assert forall row :: row in rows[1..] ==> row in rows;
      MergeCategoriesUnique(rows[1..], schools);
      assert MergeCategories(rows, schools) == head + MergeCategories(rows[1..], schools);
      UniqueStep(rows, schools, s, head, MergeCategories(rows[1..], schools));
    }
  }

  /** One step of `MergeCategoriesUnique`: the first row merged with its
      school, in front of the rest already merged. */
  lemma UniqueStep(rows: seq<JoinRow>, schools: seq<School>, s: School,
                   head: seq<SchoolCollisionRow>, rest: seq<SchoolCollisionRow>)
    requires UniqueNames(schools) && |rows| > 0
    requires s in schools && s.name == rows[0].schoolName
    requires head == [SchoolCollisionRow(rows[0], s.category2, s.category3)]
    requires |rest| == |rows| - 1
    requires forall i, t :: 0 <= i < |rows| - 1 && t in schools && t.name == rows[1..][i].schoolName ==>
               rest[i] == SchoolCollisionRow(rows[1..][i], t.category2, t.category3)
    ensures |head + rest| == |rows|
    ensures forall i, t :: 0 <= i < |rows| && t in schools && t.name == rows[i].schoolName ==>
              (head + rest)[i] == SchoolCollisionRow(rows[i], t.category2, t.category3)
  {
    forall i, t | 0 <= i < |rows| && t in schools && t.name == rows[i].schoolName
      ensures (head + rest)[i] == SchoolCollisionRow(rows[i], t.category2, t.category3)
    {
      if i == 0 {
        SameNameSameSchool(schools, s, t);
      } else {
        assert rows[i] == rows[1..][i - 1];
      }
    }
  }

  lemma SameNameSameSchool(schools: seq<School>, s: School, t: School)
    requires UniqueNames(schools) && s in schools && t in schools && s.name == t.name
    ensures s == t
  {
    var j := IndexOf(schools, s);
    var k := IndexOf(schools, t);
    assert !(j < k) && !(k < j);
  }

  /** The script's collision table: the shared loader, then every row's
      Year set to the year of its date. */
  function ScriptCollisions(rawCollisions: seq<RawCollision>, parseDate: string -> Option<Date>): (r: seq<Collision>)
    ensures |r| <= |rawCollisions|
    ensures forall c :: c in r ==> Year(c) == DateYear(c) && c.coord.Some?
    ensures forall raw :: raw in rawCollisions && Locatable(raw) ==>
              (var c := LoadRow(raw, true, parseDate); c.(year := DateYear(c)) in r)
    ensures forall c :: c in r ==>
              exists raw :: raw in rawCollisions && (var l := LoadRow(raw, true, parseDate); c == l.(year := DateYear(l)))
  {
    var loaded := LoadCollisions(rawCollisions, true, parseDate);
    var r := WithDateYears(loaded);
    forall c | c in r
      ensures exists raw :: raw in rawCollisions && (var l := LoadRow(raw, true, parseDate); c == l.(year := DateYear(l)))
    {
      DatedRowFromFile(rawCollisions, parseDate, c);
    }
    forall raw | raw in rawCollisions && Locatable(raw)
      ensures (var c := LoadRow(raw, true, parseDate); c.(year := DateYear(c)) in r)
    {
      DatedRowKept(rawCollisions, parseDate, raw);
    }
    assert forall c :: c in r ==> Year(c) == DateYear(c) && c.coord.Some? by {
      forall c | c in r
        ensures Year(c) == DateYear(c) && c.coord.Some?
      {
        var k :| 0 <= k < |r| && r[k] == c;
        assert r[k].(year := loaded[k].year) == loaded[k];
      }
    }
    r
  }

  /** A locatable row survives loading and keeps its place when the years
      are derived from the dates. */
  lemma DatedRowKept(rawCollisions: seq<RawCollision>, parseDate: string -> Option<Date>, raw: RawCollision)
    requires raw in rawCollisions && Locatable(raw)
    ensures var c := LoadRow(raw, true, parseDate);
            c.(year := DateYear(c)) in WithDateYears(LoadCollisions(rawCollisions, true, parseDate))
  {
    var loaded := LoadCollisions(rawCollisions, true, parseDate);
    var c := LoadRow(raw, true, parseDate);
    LoadCollisionsKeepsLocatable(rawCollisions, parseDate, raw);
    var k :| 0 <= k < |loaded| && loaded[k] == c;
    assert WithDateYears(loaded)[k] == c.(year := DateYear(c));
  }

  /** Every row of the script's table is a file row, loaded, with its year
      set from its date. */
  lemma DatedRowFromFile(rawCollisions: seq<RawCollision>, parseDate: string -> Option<Date>, c: Collision)
    requires c in WithDateYears(LoadCollisions(rawCollisions, true, parseDate))
    ensures exists raw :: raw in rawCollisions && (var l := LoadRow(raw, true, parseDate); c == l.(year := DateYear(l)))
  {
    var loaded := LoadCollisions(rawCollisions, true, parseDate);
    var k :| 0 <= k < |loaded| && WithDateYears(loaded)[k] == c;
    assert loaded[k] in loaded;
    var j :| 0 <= j < |rawCollisions| && loaded[k] == LoadRow(rawCollisions[j], true, parseDate);
    assert rawCollisions[j] in rawCollisions;
  }

  /** The preprocessing script end to end: load both tables, join at the
      fixed radius, merge the categories. When no collision lies near any
      school the script fails at the merge (the empty frame has no
      `school_name` column), which is `None` here. */
  function Preprocess(rawCollisions: seq<RawCollision>, rawSchools: seq<RawSchool>,
                      parseDate: string -> Option<Date>): (out: Option<seq<SchoolCollisionRow>>)
    ensures out.None? <==> NoPairNear(LoadSchools(rawSchools), ScriptCollisions(rawCollisions, parseDate))
    ensures out.Some? ==> forall o :: o in out.value ==> RowWithin(o.join, SearchRadiusDegrees)
    ensures out.Some? ==>
              forall o :: o in out.value ==>
                o.join.collision in ScriptCollisions(rawCollisions, parseDate)
                && exists s :: s in LoadSchools(rawSchools) && o.join == Tag(s, o.join.collision)
                               && NearSchool(o.join.collision, s, SearchRadiusDegrees)
    ensures out.Some? ==>
              forall s, c :: s in LoadSchools(rawSchools) && c in ScriptCollisions(rawCollisions, parseDate)
                             && NearSchool(c, s, SearchRadiusDegrees) ==>
                exists o :: o in out.value && o.join == Tag(s, c)
  {
    var schools := LoadSchools(rawSchools);
    var collisions := ScriptCollisions(rawCollisions, parseDate);
    var joined := JoinSchools(schools, collisions, SearchRadiusDegrees);
    JoinSchoolsSpec(schools, collisions, SearchRadiusDegrees);
    assert forall row :: row in joined ==> RowWithin(row, SearchRadiusDegrees);
    assert |joined| == 0 <==> NoPairNear(schools, collisions) by {
      if |joined| > 0 {
        assert joined[0] in joined;
      }
    }
    if |joined| == 0 then None
    else
      var out := MergeCategories(joined, schools);
      assert forall o :: o in out ==> o.join in joined;
      assert forall s, c :: s in schools && c in collisions && NearSchool(c, s, SearchRadiusDegrees) ==>
               exists o :: o in out && o.join == Tag(s, c) by {
        forall s, c | s in schools && c in collisions && NearSchool(c, s, SearchRadiusDegrees)
          ensures exists o :: o in out && o.join == Tag(s, c)
        {
          MergeKeepsRows(joined, schools, Tag(s, c));
        }
      }
      Some(out)
  }

  /** The script's own loader fails when no Location cell holds a comma;
      the model gives `None` there too, since no collision is loaded. */
  lemma PreprocessWithoutSecondColumn(rawCollisions: seq<RawCollision>, rawSchools: seq<RawSchool>,
                                      parseDate: string -> Option<Date>)
    requires !HasSecondColumn(rawCollisions)
    ensures Preprocess(rawCollisions, rawSchools, parseDate).None?
  {
    NoCommaNoRows(rawCollisions, parseDate);
    assert ScriptCollisions(rawCollisions, parseDate) == [];
  }

  /** No loaded collision lies within the search radius of any school. */
  predicate NoPairNear(schools: seq<School>, collisions: seq<Collision>)
  {
    forall s, c :: s in schools && c in collisions ==> !NearSchool(c, s, SearchRadiusDegrees)
  }
}

=== FILE: ranking.dfy ===
/**
 The bar-chart data of pages/2_Neighborhood_Collision_View.py: the
 neighbourhoods ranked by collision count, the top 20, the selected
 neighbourhood appended when it is not among them, de-duplicated by name,
 or the whole ranking when "Show all" is ticked.
 */
module Ranking {
  import opened Common

  /** One row of `neigh_counts`: a neighbourhood's name and its count. */
  datatype Bar = Bar(name: string, count: nat)

  const TopN: nat := 20

  predicate SortedDesc(s: seq<Bar>)
  {
    forall i, j :: 0 <= i < j < |s| ==> s[i].count >= s[j].count
  }

  /** Inserts `b` before the first row with a smaller count, so that rows
      with equal counts keep their input order. */
  function Insert(b: Bar, s: seq<Bar>): (r: seq<Bar>)
    requires SortedDesc(s)
    ensures SortedDesc(r)
    ensures multiset(r) == multiset(s) + multiset{b}
    decreases |s|
  {
    if |s| == 0 then [b]
    else if b.count >= s[0].count then [b] + s
    else
      var rest := Insert(b, s[1..]);
      InsertStep(b, s, rest);
      [s[0]] + rest
  }

  lemma InsertStep(b: Bar, s: seq<Bar>, rest: seq<Bar>)
    requires SortedDesc(s) && |s| > 0 && b.count < s[0].count
    requires SortedDesc(rest)
    requires multiset(rest) == multiset(s[1..]) + multiset{b}
    ensures SortedDesc([s[0]] + rest)
    ensures multiset([s[0]] + rest) == multiset(s) + multiset{b}
  {
    assert s == [s[0]] + s[1..];
    forall x | x in rest
      ensures x.count <= s[0].count
    {
      assert x in multiset(rest);
      if x != b {
        assert x in multiset(s[1..]);
      }
    }
  }

  /** `sort_values("collision_count", ascending=False)`, taken stable. */
  function SortDesc(s: seq<Bar>): (r: seq<Bar>)
    ensures SortedDesc(r)
    ensures multiset(r) == multiset(s)
    ensures |r| == |s|
    decreases |s|
  {
    if |s| == 0 then []
    else
      assert s == [s[0]] + s[1..];
      Insert(s[0], SortDesc(s[1..]))
  }

  /** Sorting an already sorted ranking changes nothing. */
  lemma {:induction false} SortDescSorted(s: seq<Bar>)
    requires SortedDesc(s)
    ensures SortDesc(s) == s
    decreases |s|
  {
    if |s| > 0 {
      SortDescSorted(s[1..]);
      assert SortDesc(s[1..]) == s[1..];
      if |s| > 1 {
        assert s[0].count >= s[1].count;
      }
    }
  }

  function Names(s: seq<Bar>): set<string>
  {
    set b | b in s :: b.name
  }

  /** `drop_duplicates(subset=[name])` after the names in `seen`: the first
      row of each name not yet seen, in order. */
  function DedupFrom(s: seq<Bar>, seen: set<string>): (r: seq<Bar>)
    ensures |r| <= |s|
    ensures forall b :: b in r ==> b in s && b.name !in seen
    ensures forall i, j :: 0 <= i < j < |r| ==> r[i].name != r[j].name
    ensures forall b :: b in s && b.name !in seen ==> b.name in Names(r)
    decreases |s|
  {
    if |s| == 0 then []
    else if s[0].name in seen then
      var r := DedupFrom(s[1..], seen);
      assert forall b :: b in s && b.name !in seen ==> b in s[1..];
      r
    else
      var rest := DedupFrom(s[1..], seen + {s[0].name});
      assert forall b :: b in s && b.name !in seen ==> b == s[0] || b in s[1..];
      assert forall b :: b in rest ==> b.name != s[0].name;
      [s[0]] + rest
  }

  /** De-duplicating a concatenation works part by part. */
  lemma {:induction false} DedupConcat(a: seq<Bar>, b: seq<Bar>, seen: set<string>)
    ensures DedupFrom(a + b, seen) == DedupFrom(a, seen) + DedupFrom(b, seen + Names(a))
    decreases |a|
  {
    if |a| == 0 {
      assert a + b == b;
      assert Names(a) == {};
      assert seen + Names(a) == seen;
    } else {
      assert (a + b)[0] == a[0] && (a + b)[1..] == a[1..] + b;
      assert Names(a) == {a[0].name} + Names(a[1..]) by {
        assert a == [a[0]] + a[1..];
      }
      if a[0].name in seen {
        DedupConcat(a[1..], b, seen);
        assert seen + Names(a[1..]) == seen + Names(a);
      } else {
        DedupConcat(a[1..], b, seen + {a[0].name});
        assert seen + {a[0].name} + Names(a[1..]) == seen + Names(a);
      }
    }
  }

  /** Rows that all share one name de-duplicate to at most one row, the
      first one when the name is new. */
  lemma {:induction false} DedupOneName(s: seq<Bar>, name: string, seen: set<string>)
    requires forall b :: b in s ==> b.name == name
    ensures |DedupFrom(s, seen)| <= 1
    ensures |s| > 0 && name !in seen ==> DedupFrom(s, seen) == [s[0]]
    decreases |s|
  {
    if |s| > 0 {
      if name in seen {
        DedupOneName(s[1..], name, seen);
      } else {
        DedupAllSeen(s[1..], seen + {name});
      }
    }
  }

  lemma {:induction false} DedupAllSeen(s: seq<Bar>, seen: set<string>)
    requires forall b :: b in s ==> b.name in seen
    ensures DedupFrom(s, seen) == []
    decreases |s|
  {
    if |s| > 0 {
      DedupAllSeen(s[1..], seen);
    }
  }

  /** `ranked.head(TOP_N)`. */
  function Head(s: seq<Bar>, n: nat): (r: seq<Bar>)
    ensures |r| == if |s| < n then |s| else n
    ensures r <= s
  {
    if |s| < n then s else s[..n]
  }

  lemma HeadSorted(s: seq<Bar>, n: nat)
    requires SortedDesc(s)
    ensures SortedDesc(Head(s, n))
  {
  }

  function NameIs(name: string): Bar -> bool
  {
    (b: Bar) => b.name == name
  }

  /** The rows kept before the final sort: the top 20 of the ranking, plus
      the selected neighbourhood's row when it exists and is not already
      among them, that concatenation de-duplicated by name. */
  function TopWithSelected(ranked: seq<Bar>, selected: Option<string>): (chosen: seq<Bar>)
    ensures |chosen| <= TopN + 1
    ensures forall b :: b in chosen ==> b in ranked
    ensures selected.Some? && selected.value in Names(ranked) ==> selected.value in Names(chosen)
    ensures forall b :: b in Head(ranked, TopN) ==> b.name in Names(chosen)
    ensures selected.None? ==> chosen == Head(ranked, TopN)
    ensures forall b :: b in chosen ==> b in Head(ranked, TopN) || (selected.Some? && b.name == selected.value)
    ensures selected.None? || selected.value !in Names(ranked) || selected.value in Names(Head(ranked, TopN)) ==>
              chosen == Head(ranked, TopN)
  {
    var top := Head(ranked, TopN);
    assert forall b :: b in top ==> b in ranked;
    if selected.Some? && selected.value in Names(ranked) && selected.value !in Names(top) then
      WithSelected(top, ranked, selected.value)
    else top
  }

  /** The bars drawn: `TopWithSelected` of the ranking, or the whole ranking
      when "Show all" is ticked; finally sorted by count, largest first. */
  function BarData(table: seq<Bar>, selected: Option<string>, showAll: bool): (bars: seq<Bar>)
    ensures SortedDesc(bars)
    ensures forall b :: b in bars ==> b in table
    ensures showAll ==> multiset(bars) == multiset(table)
    ensures !showAll ==> |bars| <= TopN + 1
    ensures selected.Some? && selected.value in Names(table) ==> selected.value in Names(bars)
    ensures !showAll ==> forall b :: b in Head(SortDesc(table), TopN) ==> b.name in Names(bars)
    ensures !showAll && selected.None? ==> bars == Head(SortDesc(table), TopN)
    ensures !showAll ==>
              forall b :: b in bars ==> b in Head(SortDesc(table), TopN) || (selected.Some? && b.name == selected.value)
    ensures !showAll && (selected.None? || selected.value !in Names(table)
                         || selected.value in Names(Head(SortDesc(table), TopN))) ==>
              bars == Head(SortDesc(table), TopN)
  {
    var ranked := SortDesc(table);
    SortedNames(table);
    HeadSorted(ranked, TopN);
    SortDescSorted(Head(ranked, TopN));
    var kept := if showAll then ranked else TopWithSelected(ranked, selected);
    SortedNames(kept);
    SortDesc(kept)
  }

  lemma SortedNames(s: seq<Bar>)
    ensures forall b :: b in SortDesc(s) <==> b in s
    ensures Names(SortDesc(s)) == Names(s)
  {
    var r := SortDesc(s);
    assert forall b :: b in r <==> b in multiset(r);
    assert forall b :: b in s <==> b in multiset(s);
  }

  /** `pd.concat([topN, selected_row]).drop_duplicates(subset=[name])` when
      the selected name is not among the top rows. */
  function WithSelected(top: seq<Bar>, ranked: seq<Bar>, name: string): (r: seq<Bar>)
    requires name in Names(ranked) && name !in Names(top)
    ensures |r| <= |top| + 1
    ensures forall b :: b in r ==> b in top || b in ranked
    ensures forall b :: b in r ==> b in top || (b in ranked && b.name == name)
    ensures name in Names(r)
  {
    var sel := Filter(NameIs(name), ranked);
    assert forall b :: b in top + sel ==> b in top || (b in ranked && b.name == name);
    SelectedKept(top, sel, name);
    DedupFrom(top + sel, {})
  }

  /** Appending rows of one new name to `top` and de-duplicating adds
      exactly one row, the first of those appended. */
  lemma SelectedKept(top: seq<Bar>, sel: seq<Bar>, name: string)
    requires forall b :: b in sel ==> b.name == name
    requires |sel| > 0 && name !in Names(top)
    ensures |DedupFrom(top + sel, {})| <= |top| + 1
    ensures name in Names(DedupFrom(top + sel, {}))
  {
    DedupConcat(top, sel, {});
    assert {} + Names(top) == Names(top);
    DedupOneName(sel, name, Names(top));
    var r := DedupFrom(top + sel, {});
    assert r == DedupFrom(top, {}) + [sel[0]];
    assert sel[0] in r;
  }
}

=== FILE: school_safety.dfy ===
/**
 The computations of pages/3_School_Safety_View.py: the school filters
 (category boxes and name search), the collisions of the chosen period per
 school, the annual average, the four-level safety rating, the rating filter
 and the rating colour of each school's marker.
 */
module SchoolSafety {
  import opened Common
  import opened Text
  import opened LoadData

  /** The first entry of every select box. */
  const AllChoice: string := "All"

  // ---------------------------------------------------------------
  // School filters
  // ---------------------------------------------------------------

  /** The non-missing values of a column, in row order. */
  function Present(values: seq<Option<string>>): (r: seq<string>)
    ensures forall v :: v in r <==> Some(v) in values
    decreases |values|
  {
    if |values| == 0 then []
    else
      var rest := Present(values[1..]);
      assert forall v :: Some(v) in values <==> values[0] == Some(v) || Some(v) in values[1..] by {
        assert values == [values[0]] + values[1..];
      }
      if values[0].Some? then [values[0].value] + rest else rest
  }

  /** `["All"] + sorted(non-missing unique values)`. */
  function CategoryOptions(values: seq<Option<string>>): (opts: seq<string>)
    ensures |opts| >= 1 && opts[0] == AllChoice
    ensures SortedBy(StringLess(), opts[1..])
    ensures forall v :: v in opts[1..] <==> Some(v) in values
  {
    StringLessOrder();
    var sorted := SortedDistinct(StringLess(), Present(values));
    assert ([AllChoice] + sorted)[1..] == sorted;
    [AllChoice] + sorted
  }

  function Category2Column(schools: seq<School>): (col: seq<Option<string>>)
    ensures |col| == |schools| && forall i :: 0 <= i < |schools| ==> col[i] == schools[i].category2
  {
    seq(|schools|, i requires 0 <= i < |schools| => schools[i].category2)
  }

  function Category3Column(schools: seq<School>): (col: seq<Option<string>>)
    ensures |col| == |schools| && forall i :: 0 <= i < |schools| ==> col[i] == schools[i].category3
  {
    seq(|schools|, i requires 0 <= i < |schools| => schools[i].category3)
  }

  /** A remembered choice that is no longer offered falls back to "All". */
  function EffectiveChoice(choice: string, options: seq<string>): (c: string)
    ensures c == choice || c == AllChoice
    ensures choice in options ==> c == choice
    ensures choice !in options ==> c == AllChoice
  {
    if choice in options then choice else AllChoice
  }

  /** `df[df["Category2"] == choice]` unless the choice is "All"; a missing
      category equals nothing. */
  function ByCategory2(schools: seq<School>, choice: string): (r: seq<School>)
    ensures choice == AllChoice ==> r == schools
    ensures choice != AllChoice ==> forall s :: s in r <==> s in schools && s.category2 == Some(choice)
  {
    if choice == AllChoice then schools
    else Filter((s: School) => s.category2 == Some(choice), schools)
  }

  function ByCategory3(schools: seq<School>, choice: string): (r: seq<School>)
    ensures choice == AllChoice ==> r == schools
    ensures choice != AllChoice ==> forall s :: s in r <==> s in schools && s.category3 == Some(choice)
  {
    if choice == AllChoice then schools
    else Filter((s: School) => s.category3 == Some(choice), schools)
  }

  /** `Name.str.contains(query, case=False, na=False)` when the query is not
      empty; an empty query keeps every school. */
  function SearchByName(schools: seq<School>, query: string): (r: seq<School>)
    ensures query == "" ==> r == schools
    ensures query != "" ==> forall s :: s in r <==> s in schools && ContainsIgnoringCase(s.name, query)
  {
    if query == "" then schools
    else Filter((s: School) => ContainsIgnoringCase(s.name, query), schools)
  }

  /** A school whose name holds the query verbatim is always found. */
  lemma SearchFindsVerbatim(schools: seq<School>, query: string, s: School)
    requires s in schools && Contains(s.name, query)
    ensures s in SearchByName(schools, query)
  {
    ContainsIgnoringCaseOfExact(s.name, query);
  }

  // ---------------------------------------------------------------
  // Collisions per school
  // ---------------------------------------------------------------

  /** The collision rows whose year lies in the chosen range; a missing year
      is never in range. */
  function InPeriod(rows: seq<CollisionNearSchool>, lo: int, hi: int): (r: seq<CollisionNearSchool>)
    ensures forall row :: row in r <==> row in rows && InYearRange(row.year, lo, hi)
  {
    Filter((row: CollisionNearSchool) => InYearRange(row.year, lo, hi), rows)
  }

  function ForSchool(name: string): CollisionNearSchool -> bool
  {
    (row: CollisionNearSchool) => row.schoolName == name
  }

  function ForSchoolInPeriod(name: string, lo: int, hi: int): CollisionNearSchool -> bool
  {
    (row: CollisionNearSchool) => row.schoolName == name && InYearRange(row.year, lo, hi)
  }

  /** `count / years_range if years_range > 0 else 0`. */
  function AnnualAverage(count: nat, period: int): (avg: real)
    ensures 0.0 <= avg
    ensures period > 0 ==> avg * period as real == count as real
    ensures period <= 0 ==> avg == 0.0
  {
    if period > 0 then count as real / period as real else 0.0
  }

  lemma {:induction false} AverageMonotone(c1: nat, c2: nat, period: int)
    requires c1 <= c2
    ensures AnnualAverage(c1, period) <= AnnualAverage(c2, period)
  {
    if period > 0 {
      var p := period as real;
      assert c2 as real / p - c1 as real / p == (c2 - c1) as real / p;
    }
  }

  datatype Rating = Excellent | Good | Fair | Poor

  /** Thresholds on the annual average: none, at most 3, at most 10, more. */
  function RatingOf(avg: real): Rating
  {
    if avg == 0.0 then Excellent
    else if avg <= 3.0 then Good
    else if avg <= 10.0 then Fair
    else Poor
  }

  /** Excellent is 0, Poor is 3. */
  function Severity(r: Rating): nat
  {
    match r
    case Excellent => 0
    case Good => 1
    case Fair => 2
    case Poor => 3
  }

  /** A higher non-negative average never earns a better rating. */
  lemma RatingMonotone(a1: real, a2: real)
    requires 0.0 <= a1 <= a2
    ensures Severity(RatingOf(a1)) <= Severity(RatingOf(a2))
  {
  }

  /** The four bands partition the counts over a period: none is Excellent,
      up to three a year Good, up to ten a year Fair, more Poor. */
  lemma RatingBands(count: nat, period: int)
    requires period > 0
    ensures RatingOf(AnnualAverage(count, period)) == Excellent <==> count == 0
    ensures RatingOf(AnnualAverage(count, period)) == Good <==> 0 < count <= 3 * period
    ensures RatingOf(AnnualAverage(count, period)) == Fair <==> 3 * period < count <= 10 * period
    ensures RatingOf(AnnualAverage(count, period)) == Poor <==> 10 * period < count
  {
    BandsOfAverage(AnnualAverage(count, period), count, period);
  }

  /** The same partition for any average that spreads `count` over `period`. */
  lemma BandsOfAverage(avg: real, count: nat, period: int)
    requires period > 0 && avg * period as real == count as real
    ensures RatingOf(avg) == Excellent <==> count == 0
    ensures RatingOf(avg) == Good <==> 0 < count <= 3 * period
    ensures RatingOf(avg) == Fair <==> 3 * period < count <= 10 * period
    ensures RatingOf(avg) == Poor <==> 10 * period < count
  {
    var zero := CompareBound(avg, count, period, 0);
    var three := CompareBound(avg, count, period, 3);
    var ten := CompareBound(avg, count, period, 10);
    assert avg == 0.0 <==> count == 0;
  }

  /** An average is at most `k` exactly when the count is at most `k` per
      year of the period; the average is never negative. */
  lemma CompareBound(avg: real, count: nat, period: int, k: nat) returns (within: bool)
    requires period > 0 && avg * period as real == count as real
    ensures within == (avg <= k as real) && within == (count <= k * period)
    ensures 0.0 <= avg
  {
    var p := period as real;
    ScaleCompare(avg, p, k as real);
    ScaleCompare(avg, p, 0.0);
    assert (k * period) as real == k as real * p;
    within := avg <= k as real;
  }

  /** Comparing an average with a bound is comparing the total with the
      bound times the period. */
  lemma ScaleCompare(avg: real, p: real, bound: real)
    requires p > 0.0
    ensures avg <= bound <==> avg * p <= bound * p
  {
    if avg <= bound {
      assert (bound - avg) * p >= 0.0;
    } else {
      assert (avg - bound) * p > 0.0;
    }
  }

  /** Over a fixed period, more collisions never earn a better rating. */
  lemma MoreCollisionsNeverSafer(c1: nat, c2: nat, period: int)
    requires c1 <= c2
    ensures Severity(RatingOf(AnnualAverage(c1, period))) <= Severity(RatingOf(AnnualAverage(c2, period)))
  {
    AverageMonotone(c1, c2, period);
    RatingMonotone(AnnualAverage(c1, period), AnnualAverage(c2, period));
  }

  /** Over the three years 2021 to 2023: no collision is Excellent, 9 (three a
      year) still Good, 10 Fair, 30 (ten a year) still Fair and 31 Poor. */
  lemma ThreeYearScenario()
    ensures RatingOf(AnnualAverage(0, 2023 - 2021 + 1)) == Excellent
    ensures RatingOf(AnnualAverage(9, 2023 - 2021 + 1)) == Good
    ensures RatingOf(AnnualAverage(10, 2023 - 2021 + 1)) == Fair
    ensures RatingOf(AnnualAverage(30, 2023 - 2021 + 1)) == Fair
    ensures RatingOf(AnnualAverage(31, 2023 - 2021 + 1)) == Poor
  {
  }

  /** The rating as displayed and as chosen in the rating box. */
  function Label(r: Rating): string
  {
    match r
    case Excellent => "Excellent (\U{2713}\U{2713}\U{2713})"
    case Good => "Good (\U{2713}\U{2713})"
    case Fair => "Fair (\U{2713})"
    case Poor => "Poor (\U{26A0})"
  }

  /** Each rating has its own label, and none is "All". */
  lemma LabelsDistinct(r1: Rating, r2: Rating)
    ensures Label(r1) == Label(r2) <==> r1 == r2
    ensures Label(r1) != AllChoice
  {
    if r1 != r2 {
      assert Label(r1)[0] != Label(r2)[0] || |Label(r1)| != |Label(r2)|;
    }
  }

  /** One row of the display table. */
  datatype SafetyRow = SafetyRow(school: School, count: nat, average: real, rating: Rating)

  /** The loop body for one school: its collisions in the period, the
      average over the period's length, the rating. */
  function Assess(s: School, inPeriod: seq<CollisionNearSchool>, period: int): (a: SafetyRow)
    ensures a.school == s
    ensures a.count == |Filter(ForSchool(s.name), inPeriod)|
    ensures a.average == AnnualAverage(a.count, period)
    ensures a.rating == RatingOf(a.average)
    ensures a.rating == Excellent <==> a.count == 0 || period <= 0
  {
    var count := |Filter(ForSchool(s.name), inPeriod)|;
    AveragePositive(count, period);
    var avg := AnnualAverage(count, period);
    SafetyRow(s, count, avg, RatingOf(avg))
  }

  lemma AveragePositive(count: nat, period: int)
    ensures AnnualAverage(count, period) == 0.0 <==> count == 0 || period <= 0
  {
    if count > 0 && period > 0 {
      assert AnnualAverage(count, period) * period as real > 0.0;
    }
  }

  /** The display table of the filtered schools over the year range `lo..hi`. */
  function SafetyTable(schools: seq<School>, collisions: seq<CollisionNearSchool>, lo: int, hi: int): (rows: seq<SafetyRow>)
    ensures |rows| == |schools|
    ensures forall i :: 0 <= i < |schools| ==> rows[i].school == schools[i]
    ensures forall i :: 0 <= i < |schools| ==>
              rows[i].count == |Filter(ForSchoolInPeriod(schools[i].name, lo, hi), collisions)|
    ensures forall i :: 0 <= i < |schools| ==> rows[i].rating == RatingOf(rows[i].average)
    ensures forall i :: 0 <= i < |schools| ==> rows[i].average == AnnualAverage(rows[i].count, hi - lo + 1)
  {
    var inPeriod := InPeriod(collisions, lo, hi);
    var rows := seq(|schools|, i requires 0 <= i < |schools| => Assess(schools[i], inPeriod, hi - lo + 1));
    forall i | 0 <= i < |schools|
      ensures rows[i].count == |Filter(ForSchoolInPeriod(schools[i].name, lo, hi), collisions)|
    {
      FilterBoth((row: CollisionNearSchool) => InYearRange(row.year, lo, hi), ForSchool(schools[i].name),
                 ForSchoolInPeriod(schools[i].name, lo, hi), collisions);
    }
    rows
  }

  /** Widening the year range never lowers a school's count. */
  lemma WiderPeriodNeverFewer(schools: seq<School>, collisions: seq<CollisionNearSchool>,
                              lo: int, hi: int, lo2: int, hi2: int, i: nat)
    requires lo2 <= lo && hi <= hi2 && i < |schools|
    ensures SafetyTable(schools, collisions, lo, hi)[i].count <= SafetyTable(schools, collisions, lo2, hi2)[i].count
  {
    FilterWeaker(ForSchoolInPeriod(schools[i].name, lo, hi), ForSchoolInPeriod(schools[i].name, lo2, hi2), collisions);
  }

  /** Schools sharing a name share their collisions, so their counts agree. */
  lemma SameNameSameCount(schools: seq<School>, collisions: seq<CollisionNearSchool>, lo: int, hi: int, i: nat, j: nat)
    requires i < |schools| && j < |schools| && schools[i].name == schools[j].name
    ensures SafetyTable(schools, collisions, lo, hi)[i].count == SafetyTable(schools, collisions, lo, hi)[j].count
    ensures SafetyTable(schools, collisions, lo, hi)[i].rating == SafetyTable(schools, collisions, lo, hi)[j].rating
  {
  }

  /** `df[df["safety_rating"] == selected]` unless "All" is selected. */
  function ByRating(rows: seq<SafetyRow>, selected: string): (r: seq<SafetyRow>)
    ensures selected == AllChoice ==> r == rows
    ensures selected != AllChoice ==> forall x :: x in r <==> x in rows && Label(x.rating) == selected
  {
    if selected == AllChoice then rows
    else Filter((x: SafetyRow) => Label(x.rating) == selected, rows)
  }

  /** Choosing a rating's label keeps exactly the rows with that rating. */
  lemma ByRatingLabel(rows: seq<SafetyRow>, rating: Rating)
    ensures forall x :: x in ByRating(rows, Label(rating)) <==> x in rows && x.rating == rating
  {
    LabelsDistinct(rating, rating);
    forall x: SafetyRow
      ensures Label(x.rating) == Label(rating) <==> x.rating == rating
    {
      LabelsDistinct(x.rating, rating);
    }
  }

  // ---------------------------------------------------------------
  // Marker colour
  // ---------------------------------------------------------------

  const ExcellentColour: Rgb := Rgb(34, 177, 76)
  const GoodColour: Rgb := Rgb(255, 192, 0)
  const FairColour: Rgb := Rgb(255, 127, 0)
  const PoorColour: Rgb := Rgb(255, 0, 0)
  const UnratedColour: Rgb := Rgb(150, 150, 150)

  function ColourTable(): map<string, Rgb>
  {
    map[Label(Excellent) := ExcellentColour, Label(Good) := GoodColour,
        Label(Fair) := FairColour, Label(Poor) := PoorColour]
  }

  /** `color_map.get(rating, (150, 150, 150))`. */
  function SafetyColour(rating: string): (c: Rgb)
    ensures rating in ColourTable() ==> c == ColourTable()[rating]
    ensures rating !in ColourTable() ==> c == UnratedColour
  {
    if rating in ColourTable() then ColourTable()[rating] else UnratedColour
  }

  /** Every rating gets its own colour, never the grey fallback; the empty
      initial rating gets the grey. */
  lemma RatingColours(r1: Rating, r2: Rating)
    ensures SafetyColour(Label(r1)) != UnratedColour
    ensures r1 != r2 ==> SafetyColour(Label(r1)) != SafetyColour(Label(r2))
    ensures SafetyColour("") == UnratedColour
  {
    LabelsDistinct(r1, r2);
    assert Label(Excellent) != Label(Good) && Label(Excellent) != Label(Fair) && Label(Excellent) != Label(Poor);
    assert Label(Good) != Label(Fair) && Label(Good) != Label(Poor) && Label(Fair) != Label(Poor);
    assert "" !in ColourTable();
  }

  // ---------------------------------------------------------------
  // The page
  // ---------------------------------------------------------------

  /** The sidebar state the page computes from: the two category boxes as
      currently set, and the year range, name search and safety rating as
      last applied with the "Apply Filters" button. */
  datatype Filters = Filters(lo: int, hi: int, category2: string, category3: string, search: string, safety: string)

  /** The schools left by the category boxes and the search. */
  function ShownSchools(schools: seq<School>, f: Filters): (r: seq<School>)
    ensures forall s :: s in r ==> s in schools
    ensures forall s :: s in r ==> f.category2 == AllChoice || s.category2 == Some(f.category2)
    ensures forall s :: s in r ==> f.search == "" || ContainsIgnoringCase(s.name, f.search)
    ensures forall s :: s in r ==>
              f.category3 == AllChoice || s.category3 == Some(f.category3) || !Category3Offered(schools, f)
    ensures forall s :: s in schools && Passes(s, f) ==> s in r
    ensures !Category3Offered(schools, f) ==>
              forall s :: s in schools && Passes(s, f.(category3 := AllChoice)) ==> s in r
  {
    var byCat2 := ByCategory2(schools, f.category2);
    var options := CategoryOptions(Category3Column(byCat2));
    var cat3 := EffectiveChoice(f.category3, options);
    Category3Choice(schools, f);
    var byCat3 := ByCategory3(byCat2, cat3);
    SearchByName(byCat3, f.search)
  }

  /** Some school of the chosen type has the chosen category; otherwise the
      category box falls back to "All". */
  predicate Category3Offered(schools: seq<School>, f: Filters)
  {
    exists t :: t in schools && (f.category2 == AllChoice || t.category2 == Some(f.category2))
                && t.category3 == Some(f.category3)
  }

  /** A school matching every box and the search. */
  predicate Passes(s: School, f: Filters)
  {
    (f.category2 == AllChoice || s.category2 == Some(f.category2))
    && (f.category3 == AllChoice || s.category3 == Some(f.category3))
    && (f.search == "" || ContainsIgnoringCase(s.name, f.search))
  }

  /** The category3 filter in effect is the chosen one exactly when it is
      offered (or "All"). */
  lemma Category3Choice(schools: seq<School>, f: Filters)
    ensures var byCat2 := ByCategory2(schools, f.category2);
            var cat3 := EffectiveChoice(f.category3, CategoryOptions(Category3Column(byCat2)));
            (Category3Offered(schools, f) ==> cat3 == f.category3)
            && (cat3 == f.category3 || cat3 == AllChoice)
            && (!Category3Offered(schools, f) ==> cat3 == AllChoice)
  {
    OfferedOption(schools, f);
    OptionOffered(schools, f);
  }

  /** A category some school of the chosen type has is listed in the box. */
  lemma OptionOffered(schools: seq<School>, f: Filters)
    ensures var options := CategoryOptions(Category3Column(ByCategory2(schools, f.category2)));
            Category3Offered(schools, f) && f.category3 != AllChoice ==> f.category3 in options
  {
    var byCat2 := ByCategory2(schools, f.category2);
    var column := Category3Column(byCat2);
    var options := CategoryOptions(column);
    if Category3Offered(schools, f) && f.category3 != AllChoice {
      var t :| t in schools && (f.category2 == AllChoice || t.category2 == Some(f.category2))
               && t.category3 == Some(f.category3);
      assert t in byCat2;
      var k :| 0 <= k < |byCat2| && byCat2[k] == t;
      assert column[k] == Some(f.category3);
      assert f.category3 in options[1..];
    }
  }

  /** A category listed in the box belongs to some school of the chosen type. */
  lemma OfferedOption(schools: seq<School>, f: Filters)
    ensures var options := CategoryOptions(Category3Column(ByCategory2(schools, f.category2)));
            f.category3 != AllChoice && f.category3 in options ==> Category3Offered(schools, f)
  {
    var byCat2 := ByCategory2(schools, f.category2);
    var column := Category3Column(byCat2);
    var options := CategoryOptions(column);
    if f.category3 != AllChoice && f.category3 in options {
      assert f.category3 in options[1..];
      var k :| 0 <= k < |column| && column[k] == Some(f.category3);
      assert byCat2[k] in byCat2;
    }
  }

  lemma TableRows(schools: seq<School>, collisions: seq<CollisionNearSchool>, lo: int, hi: int)
    ensures forall x :: x in SafetyTable(schools, collisions, lo, hi) ==>
              x.school in schools
              && x.count == |Filter(ForSchoolInPeriod(x.school.name, lo, hi), collisions)|
              && x.rating == RatingOf(AnnualAverage(x.count, hi - lo + 1))
  {
    var table := SafetyTable(schools, collisions, lo, hi);
    forall x | x in table
      ensures x.school in schools
      ensures x.count == |Filter(ForSchoolInPeriod(x.school.name, lo, hi), collisions)|
      ensures x.rating == RatingOf(AnnualAverage(x.count, hi - lo + 1))
    {
      var i :| 0 <= i < |table| && table[i] == x;
    }
  }

  /** The schools shown, with their counts and ratings: category filters,
      name search, the table over the period, then the rating filter. */
  function SafetyView(schools: seq<School>, collisions: seq<CollisionNearSchool>, f: Filters): (rows: seq<SafetyRow>)
    ensures forall x :: x in rows ==> x.school in schools
    ensures forall x :: x in rows ==> f.category2 == AllChoice || x.school.category2 == Some(f.category2)
    ensures forall x :: x in rows ==> f.search == "" || ContainsIgnoringCase(x.school.name, f.search)
    ensures forall x :: x in rows ==>
              f.category3 == AllChoice || x.school.category3 == Some(f.category3) || !Category3Offered(schools, f)
    ensures forall x :: x in rows ==> f.safety == AllChoice || Label(x.rating) == f.safety
    ensures forall x :: x in rows ==>
              x.count == |Filter(ForSchoolInPeriod(x.school.name, f.lo, f.hi), collisions)|
              && x.rating == RatingOf(AnnualAverage(x.count, f.hi - f.lo + 1))
    ensures forall s :: s in schools && Passes(s, f)
                        && (f.safety == AllChoice || Label(RatingIn(s, collisions, f.lo, f.hi)) == f.safety) ==>
              exists x :: x in rows && x.school == s
    ensures !Category3Offered(schools, f) ==>
              forall s :: s in schools && Passes(s, f.(category3 := AllChoice))
                          && (f.safety == AllChoice || Label(RatingIn(s, collisions, f.lo, f.hi)) == f.safety) ==>
                exists x :: x in rows && x.school == s
  {
    var shown := ShownSchools(schools, f);
    TableRows(shown, collisions, f.lo, f.hi);
    var table := SafetyTable(shown, collisions, f.lo, f.hi);
    var rows := ByRating(table, f.safety);
    forall s | s in shown && (f.safety == AllChoice || Label(RatingIn(s, collisions, f.lo, f.hi)) == f.safety)
      ensures exists x :: x in rows && x.school == s
    {
      RatedRowsKept(shown, collisions, f, s);
    }
    rows
  }

  /** Every shown school keeps its row when its rating passes the filter. */
  lemma RatedRowsKept(shown: seq<School>, collisions: seq<CollisionNearSchool>, f: Filters, s: School)
    requires s in shown
    requires f.safety == AllChoice || Label(RatingIn(s, collisions, f.lo, f.hi)) == f.safety
    ensures exists x :: x in ByRating(SafetyTable(shown, collisions, f.lo, f.hi), f.safety) && x.school == s
  {
    var table := SafetyTable(shown, collisions, f.lo, f.hi);
    var k := IndexOf(shown, s);
    assert table[k].school == s && table[k].rating == RatingIn(s, collisions, f.lo, f.hi) by {
      TableRating(shown, collisions, f.lo, f.hi, k);
    }
    KeptRow(table, k, f.safety);
  }

  /** A row whose label matches the rating filter survives it. */
  lemma KeptRow(rows: seq<SafetyRow>, k: nat, selected: string)
    requires k < |rows| && (selected == AllChoice || Label(rows[k].rating) == selected)
    ensures rows[k] in ByRating(rows, selected)
  {
    assert rows[k] in rows;
  }

  /** Row `k` of the table is the `k`-th school, rated over the period. */
  lemma TableRating(shown: seq<School>, collisions: seq<CollisionNearSchool>, lo: int, hi: int, k: nat)
    requires k < |shown|
    ensures SafetyTable(shown, collisions, lo, hi)[k].school == shown[k]
    ensures SafetyTable(shown, collisions, lo, hi)[k].rating
            == RatingOf(AnnualAverage(|Filter(ForSchoolInPeriod(shown[k].name, lo, hi), collisions)|, hi - lo + 1))
  {
  }

  /** The rating a school gets over the applied period. */
  function RatingIn(s: School, collisions: seq<CollisionNearSchool>, lo: int, hi: int): Rating
  {
    RatingOf(AnnualAverage(|Filter(ForSchoolInPeriod(s.name, lo, hi), collisions)|, hi - lo + 1))
  }
}

=== FILE: text.dfy ===
/**
 The string handling the loaders rely on: pandas' `str.strip`, `str.split`,
 `str.lower` and `str.contains`, and `pd.to_numeric` restricted to plain
 decimal literals. Strings are sequences of characters; case folding is
 ASCII only.
 */
module Text {
  import opened Common

  /** The ASCII characters an argument-less `str.strip()` removes. */
  predicate IsSpace(c: char)
  {
    c == ' ' || c == '\t' || c == '\n' || c == '\r' || c as int == 11 || c as int == 12
  }

  /** The characters `str.strip("()")` removes. */
  predicate IsParen(c: char)
  {
    c == '(' || c == ')'
  }

  /** Drops leading characters that satisfy `drop`. */
  function TrimStart(s: string, drop: char -> bool): (r: string)
    ensures |r| <= |s| && r == s[|s| - |r|..]
    ensures |r| > 0 ==> !drop(r[0])
    ensures forall i :: 0 <= i < |s| - |r| ==> drop(s[i])
    decreases |s|
  {
    if |s| > 0 && drop(s[0]) then TrimStart(s[1..], drop) else s
  }

  /** Drops trailing characters that satisfy `drop`. */
  function TrimEnd(s: string, drop: char -> bool): (r: string)
    ensures |r| <= |s| && r == s[..|r|]
    ensures |r| > 0 ==> !drop(r[|r| - 1])
    ensures forall i :: |r| <= i < |s| ==> drop(s[i])
    decreases |s|
  {
    if |s| > 0 && drop(s[|s| - 1]) then TrimEnd(s[..|s| - 1], drop) else s
  }

  /** Python's `str.strip(chars)`: both ends trimmed of `drop` characters. */
  function Strip(s: string, drop: char -> bool): (r: string)
    ensures |r| <= |s|
    ensures |r| > 0 ==> !drop(r[0]) && !drop(r[|r| - 1])
  {
    TrimEnd(TrimStart(s, drop), drop)
  }

  /** Stripping removes exactly the padding around a core whose ends are kept. */
  lemma {:induction false} StripPadded(pre: string, core: string, post: string, drop: char -> bool)
    requires forall i :: 0 <= i < |pre| ==> drop(pre[i])
    requires forall i :: 0 <= i < |post| ==> drop(post[i])
    requires |core| > 0 ==> !drop(core[0]) && !drop(core[|core| - 1])
    ensures Strip(pre + core + post, drop) == core
  {
    var s := pre + core + post;
    if |core| == 0 {
      assert forall i :: 0 <= i < |s| ==> drop(s[i]);
    } else {
      assert (core + post)[0] == core[0];
      assert s == pre + (core + post);
      TrimStartPadded(pre, core + post, drop);
      TrimEndPadded(core, post, drop);
    }
  }

  lemma {:induction false} TrimStartPadded(pre: string, rest: string, drop: char -> bool)
    requires forall i :: 0 <= i < |pre| ==> drop(pre[i])
    requires |rest| > 0 ==> !drop(rest[0])
    ensures TrimStart(pre + rest, drop) == rest
    decreases |pre|
  {
    if |pre| == 0 {
      assert pre + rest == rest;
    } else {
      assert (pre + rest)[1..] == pre[1..] + rest;
      TrimStartPadded(pre[1..], rest, drop);
    }
  }

  lemma {:induction false} TrimEndPadded(core: string, post: string, drop: char -> bool)
    requires forall i :: 0 <= i < |post| ==> drop(post[i])
    requires |core| > 0 ==> !drop(core[|core| - 1])
    ensures TrimEnd(core + post, drop) == core
    decreases |post|
  {
    if |post| == 0 {
      assert core + post == core;
    } else {
      var shorter := post[..|post| - 1];
      assert (core + post)[..|core + post| - 1] == core + shorter;
      TrimEndPadded(core, shorter, drop);
    }
  }

  /** Python's `str.split(sep)`: the pieces between separators, always at least one. */
  function Split(s: string, sep: char): (parts: seq<string>)
    ensures |parts| >= 1
    ensures forall k :: 0 <= k < |parts| ==> sep !in parts[k]
    decreases |s|
  {
    if |s| == 0 then [""]
    else
      var rest := Split(s[1..], sep);
      if s[0] == sep then [""] + rest
      else [[s[0]] + rest[0]] + rest[1..]
  }

  /** `sep.join(parts)`, the inverse of `Split`. */
  function Join(parts: seq<string>, sep: char): string
    requires |parts| >= 1
  {
    if |parts| == 1 then parts[0] else parts[0] + [sep] + Join(parts[1..], sep)
  }

  /** Splitting loses nothing: joining the pieces rebuilds the text. */
  lemma {:induction false} JoinSplit(s: string, sep: char)
    ensures Join(Split(s, sep), sep) == s
    decreases |s|
  {
    if |s| > 0 {
      JoinSplit(s[1..], sep);
      var pieces: seq<string> := Split(s[1..], sep);
      if s[0] != sep && |pieces| > 1 {
        assert Join(pieces, sep) == pieces[0] + [sep] + Join(pieces[1..], sep);
      }
    }
  }

  lemma {:induction false} SplitNoSeparator(s: string, sep: char)
    requires sep !in s
    ensures Split(s, sep) == [s]
    decreases |s|
  {
    if |s| > 0 {
      SplitNoSeparator(s[1..], sep);
      assert [s[0]] + s[1..] == s;
    }
  }

  lemma {:induction false} SplitAfterPiece(a: string, b: string, sep: char)
    requires sep !in a
    ensures Split(a + [sep] + b, sep) == [a] + Split(b, sep)
    decreases |a|
  {
    var s := a + [sep] + b;
    if |a| == 0 {
      assert s[1..] == b;
    } else {
      assert s[1..] == a[1..] + [sep] + b;
      SplitAfterPiece(a[1..], b, sep);
      assert [s[0]] + a[1..] == a;
    }
  }

  /** Joining separator-free pieces and splitting again gives the pieces back. */
  lemma {:induction false} SplitJoin(parts: seq<string>, sep: char)
    requires |parts| >= 1
    requires forall k :: 0 <= k < |parts| ==> sep !in parts[k]
    ensures Split(Join(parts, sep), sep) == parts
    decreases |parts|
  {
    if |parts| == 1 {
      SplitNoSeparator(parts[0], sep);
    } else {
      SplitJoin(parts[1..], sep);
      SplitAfterPiece(parts[0], Join(parts[1..], sep), sep);
      assert [parts[0]] + parts[1..] == parts;
    }
  }

  /** ASCII `str.lower()` of one character. */
  function LowerChar(c: char): char
  {
    if 'A' <= c <= 'Z' then (c as int + 32) as char else c
  }

  function Lower(s: string): string
  {
    seq(|s|, i requires 0 <= i < |s| => LowerChar(s[i]))
  }

  /** Python's `needle in hay`. */
  predicate Contains(hay: string, needle: string)
    decreases |hay|
  {
    needle <= hay || (|hay| > 0 && Contains(hay[1..], needle))
  }

  /** The needle occurs in the haystack starting at offset `i`. */
  predicate OccursAt(hay: string, needle: string, i: int)
  {
    0 <= i <= |hay| - |needle| && hay[i..i + |needle|] == needle
  }

  /** `Contains` holds exactly when the needle occurs at some offset. */
  lemma {:induction false} ContainsIffOccurs(hay: string, needle: string)
    ensures Contains(hay, needle) <==> exists i :: OccursAt(hay, needle, i)
    decreases |hay|
  {
    if needle <= hay {
      assert OccursAt(hay, needle, 0);
    } else if |hay| > 0 {
      ContainsIffOccurs(hay[1..], needle);
      if Contains(hay[1..], needle) {
        var i :| OccursAt(hay[1..], needle, i);
        assert hay[1..][i..i + |needle|] == hay[i + 1..i + 1 + |needle|];
        assert OccursAt(hay, needle, i + 1);
      }
      if exists i :: OccursAt(hay, needle, i) {
        var i :| OccursAt(hay, needle, i);
        assert i != 0;
        assert hay[1..][i - 1..i - 1 + |needle|] == hay[i..i + |needle|];
        assert OccursAt(hay[1..], needle, i - 1);
      }
    } else {
      assert forall i :: !OccursAt(hay, needle, i);
    }
  }

  /** `str.contains(needle, case=False)` for plain text. */
  predicate ContainsIgnoringCase(hay: string, needle: string)
  {
    Contains(Lower(hay), Lower(needle))
  }

  lemma LowerIdempotent(s: string)
    ensures Lower(Lower(s)) == Lower(s)
  {
  }

  /** Lower-casing the query does not change what a case-insensitive search finds. */
  lemma IgnoringCaseOfQuery(hay: string, needle: string)
    ensures ContainsIgnoringCase(hay, Lower(needle)) == ContainsIgnoringCase(hay, needle)
  {
    LowerIdempotent(needle);
  }

  /** A case-insensitive search finds every exact occurrence. */
  lemma ContainsIgnoringCaseOfExact(hay: string, needle: string)
    requires Contains(hay, needle)
    ensures ContainsIgnoringCase(hay, needle)
  {
    ContainsIffOccurs(hay, needle);
    var i :| OccursAt(hay, needle, i);
    assert Lower(hay)[i..i + |needle|] == Lower(hay[i..i + |needle|]);
    assert OccursAt(Lower(hay), Lower(needle), i);
    ContainsIffOccurs(Lower(hay), Lower(needle));
  }

  /** The empty string occurs in every string. */
  lemma ContainsEmpty(hay: string)
    ensures Contains(hay, "")
  {
  }

  /** Python's `<` on str: lexicographic by code point, a proper prefix first. */
  predicate StrLess(a: string, b: string)
    decreases |a|
  {
    |b| > 0 && (|a| == 0 || a[0] < b[0] || (a[0] == b[0] && StrLess(a[1..], b[1..])))
  }

  lemma {:induction false} StrLessIrreflexive(a: string)
    ensures !StrLess(a, a)
    decreases |a|
  {
    if |a| > 0 {
      StrLessIrreflexive(a[1..]);
    }
  }

  lemma {:induction false} StrLessTransitive(a: string, b: string, c: string)
    requires StrLess(a, b) && StrLess(b, c)
    ensures StrLess(a, c)
    decreases |a|
  {
    if |a| > 0 && a[0] == b[0] && b[0] == c[0] {
      StrLessTransitive(a[1..], b[1..], c[1..]);
    }
  }

  lemma {:induction false} StrLessTotal(a: string, b: string)
    requires a != b
    ensures StrLess(a, b) || StrLess(b, a)
    decreases |a|
  {
    if |a| > 0 && |b| > 0 && a[0] == b[0] {
      assert a == [a[0]] + a[1..] && b == [b[0]] + b[1..];
      StrLessTotal(a[1..], b[1..]);
    }
  }

  function StringLess(): (string, string) -> bool
  {
    (a: string, b: string) => StrLess(a, b)
  }

  lemma StringLessOrder()
    ensures StrictTotalOrder(StringLess())
  {
    forall a: string
      ensures !StringLess()(a, a)
    {
      StrLessIrreflexive(a);
    }
    forall a: string, b: string, c: string | StringLess()(a, b) && StringLess()(b, c)
      ensures StringLess()(a, c)
    {
      StrLessTransitive(a, b, c);
    }
    forall a: string, b: string | a != b
      ensures StringLess()(a, b) || StringLess()(b, a)
    {
      StrLessTotal(a, b);
    }
  }

  type Digit = d: int | 0 <= d <= 9

  predicate IsDigit(c: char)
  {
    '0' <= c <= '9'
  }

  predicate AllDigits(s: string)
  {
    forall i :: 0 <= i < |s| ==> IsDigit(s[i])
  }

  function DigitChar(d: Digit): char
  {
    ('0' as int + d) as char
  }

  function DigitOf(c: char): Digit
    requires IsDigit(c)
  {
    c as int - '0' as int
  }

  /** The characters of a digit sequence. */
  function DigitsText(ds: seq<Digit>): (s: string)
    ensures |s| == |ds| && AllDigits(s)
  {
    seq(|ds|, i requires 0 <= i < |ds| => DigitChar(ds[i]))
  }

  /** The digits of a text made of digit characters. */
  function DigitsOf(s: string): (ds: seq<Digit>)
    requires AllDigits(s)
    ensures |ds| == |s|
  {
    seq(|s|, i requires 0 <= i < |s| => DigitOf(s[i]))
  }

  lemma DigitsRoundTrip(ds: seq<Digit>)
    ensures DigitsOf(DigitsText(ds)) == ds
  {
  }

  /** The value of a big-endian digit string. */
  function WholeValue(ds: seq<Digit>): nat
  {
    if |ds| == 0 then 0 else WholeValue(ds[..|ds| - 1]) * 10 + ds[|ds| - 1]
  }

  /** The value of the digits after a decimal point. */
  function FracValue(ds: seq<Digit>): real
  {
    if |ds| == 0 then 0.0 else (ds[0] as real + FracValue(ds[1..])) / 10.0
  }

  /** `pd.to_numeric` of an unsigned decimal literal: digits with at most one
      point and at least one digit on either side of it ("12", "12.5", "12.", ".5"). */
  function ParseUnsigned(s: string): Option<real>
  {
    var parts := Split(s, '.');
    if |parts| == 1 then
      if |parts[0]| > 0 && AllDigits(parts[0]) then Some(WholeValue(DigitsOf(parts[0])) as real)
      else None
    else if |parts| == 2 && AllDigits(parts[0]) && AllDigits(parts[1]) && |parts[0]| + |parts[1]| > 0 then
      Some(WholeValue(DigitsOf(parts[0])) as real + FracValue(DigitsOf(parts[1])))
    else None
  }

  /** `pd.to_numeric(s, errors="coerce")` for an optionally signed decimal
      literal; anything else is coerced to a missing value. */
  function ParseNumber(s: string): Option<real>
  {
    if |s| > 0 && (s[0] == '-' || s[0] == '+') then
      match ParseUnsigned(s[1..])
      case None => None
      case Some(v) => Some(if s[0] == '-' then -v else v)
    else ParseUnsigned(s)
  }

  /** A decimal literal as it appears in the data: sign, whole digits and
      fractional digits. */
  datatype Decimal = Decimal(negative: bool, whole: seq<Digit>, frac: seq<Digit>)

  predicate ValidDecimal(d: Decimal)
  {
    |d.whole| + |d.frac| > 0
  }

  function DecimalValue(d: Decimal): real
  {
    var magnitude := WholeValue(d.whole) as real + FracValue(d.frac);
    if d.negative then -magnitude else magnitude
  }

  /** The text of a decimal literal; the point is written only when there
      are fractional digits. */
  function FormatDecimal(d: Decimal): string
  {
    (if d.negative then "-" else "")
    + DigitsText(d.whole)
    + (if |d.frac| == 0 then "" else "." + DigitsText(d.frac))
  }

  lemma {:induction false} ParseFormatUnsigned(d: Decimal)
    requires ValidDecimal(d)
    ensures ParseUnsigned(FormatDecimal(d.(negative := false)))
            == Some(WholeValue(d.whole) as real + FracValue(d.frac))
  {
    var w := DigitsText(d.whole);
    var text := FormatDecimal(d.(negative := false));
    DigitsRoundTrip(d.whole);
    if |d.frac| == 0 {
      assert text == w;
      assert '.' !in w;
      SplitNoSeparator(w, '.');
    } else {
      var f := DigitsText(d.frac);
      DigitsRoundTrip(d.frac);
      assert text == Join([w, f], '.');
      SplitJoin([w, f], '.');
    }
  }

  /** Reading back a formatted decimal yields its value: the loader recovers
      exactly the number that was written. */
  lemma {:induction false} ParseFormat(d: Decimal)
    requires ValidDecimal(d)
    ensures ParseNumber(FormatDecimal(d)) == Some(DecimalValue(d))
  {
    var body := FormatDecimal(d.(negative := false));
    ParseFormatUnsigned(d);
    if d.negative {
      assert FormatDecimal(d) == "-" + body;
      assert FormatDecimal(d)[1..] == body;
    } else {
      assert FormatDecimal(d) == body;
      assert |body| > 0;
      if |d.whole| > 0 {
        assert body[0] == DigitChar(d.whole[0]);
      } else {
        assert body[0] == '.';
      }
    }
  }
}
